=== FILE: README.md ===
# jolsho.com live-streaming server: a Dafny model of its core

This project models the Go server behind a small live-streaming site. An RTMP ingestion process
posts webhooks to it:

- `auth` checks the ingestion address against an allow-list and prepares the stream's segment
  directory.
- `publish`, `publish_done`, `new_viewer` and `viewer_left` keep a registry of streams.
- Once a stream ends, `RebuildM3U8` rewrites the stream's HLS playlist.

It also serves browsers:

- a rate-limited HTTPS front, with a gate per remote address. `r.RemoteAddr` is "IP:port", so
  the gate is per TCP connection, and a client that reconnects gets a fresh limiter;
- an `/hls/` file route with explicit cache, CORS and MIME headers;
- a plain-HTTP redirect to HTTPS;
- a websocket chat. Members of a room are keyed by remote address (again "IP:port", so one per
  connection), each connection has its own message limiter, and every accepted message goes to
  all members. A member whose write fails is dropped.

`server/video.go` also holds two handlers, `servePlaylist` and `serveSegment`, that nothing routes
to. No mux registers them, and the file sits beside `main.go` in a package that `main` does not
import. They are modelled as that file has them: the first rewrites the live playlist so that
each segment line gets an alias `segment-<k>.ts`, and the second resolves those aliases.

The model treats every handler call and every chat event as one atomic step on explicit state:

- `State.ServerState` is a class with the four registries: visitors, rooms, allowed addresses and
  streams.
- `Video.LiveSegments` holds the alias map.

Everything outside the process comes in as an input:

- filesystem results;
- websocket upgrade and write outcomes;
- the limiter's `Allow()` answers;
- JSON decoding;
- the clock string.

The modules:

- `GoStd` holds the Go library behaviour the handlers depend on, written out exactly:
  - `strings.TrimPrefix` and `TrimSuffix`;
  - `strconv.Atoi` with its error dropped, saturating to the int64 range and taking ParseUint's
    early range error;
  - `filepath.Ext`;
  - `uint32` wrap-around;
  - `os.IsNotExist` against `errors.Is`;
  - `http.Error`'s trailing newline;
  - a handler panic, which becomes `Aborted`: net/http recovers it by dropping the connection.
- `State` holds the server state, its seeding, the `isLive` lookup and the chat session steps
  (join, read error, one message with its fan-out).
- `ChatLocks` traces the two `sync.RWMutex`es of the chat handler, as written and corrected.
- `Nginx` holds webhook dispatch, `auth` and `ClearDir`, and the stream lifecycle.
- `Rebuild` holds the playlist rebuild: collect, sort in place by segment number, render.
  It follows RFC 8216:
  - EXTM3U and EXT-X-VERSION, section 4.3.1;
  - EXTINF, section 4.3.2;
  - EXT-X-TARGETDURATION and EXT-X-MEDIA-SEQUENCE, section 4.3.3.
- `Web` holds the rate-limit gate, the `/hls/` header logic and the redirect target.
- `Video` holds the unrouted playlist rewrite and segment lookup of server/video.go.

Behaviour of the code that the model keeps as it is:

- A client-supplied chat timestamp is kept; only a missing one is filled in.
- The playlist is written in place with `os.WriteFile`.
- The segment sort key is `Atoi` of the whole name without `.ts`. A name that is not a number
  sorts as 0.
- The chat limiter grants one token every two seconds with a burst of five.
- The webhook handlers dereference the stream record without checking that it exists. A missing
  name aborts the request; publish_done has already scheduled its rebuild by then.
- Viewer counts wrap modulo 2^32.

## Model

| member | source | states |
|---|---|---|
| GoStd.Atoi | server/servers/nginx.go:146-147 | The sort key of a segment, always in the int64 range. An optional sign followed by digits gives its signed value, saturated to the minimum or maximum int64 when out of range. Anything else ("", "-", "+x", "12abc") gives 0, unless the digits before the first non-digit already exceed 2^64-1, which saturates. |
| GoStd.AtoiExamples | server/servers/nginx.go:146-147 | "", "-", "+x" and "12abc" give 0; "-5" gives -5 and "+42" gives 42. |
| GoStd.Ext | server/servers/web.go:100 | The extension is empty, or a suffix of the path starting with '.' with no further '.' or '/'. |
| GoStd.ExtOfSuffix | server/servers/web.go:100-106 | A path ending in an extension-shaped suffix has exactly that suffix as its extension. |
| GoStd.Inc32 | server/servers/nginx.go:168 | `Viewers++` on a uint32 is +1 modulo 2^32. |
| GoStd.Dec32 | server/servers/nginx.go:174 | `Viewers--` on a uint32 is -1 modulo 2^32. |
| State.Stamped | server/servers/state.go:149-151 | Code and text are never altered. An empty timestamp becomes the clock string; any other is kept. |
| State.StampedOnce | server/servers/state.go:149-151 | A stamped message is never re-stamped. |
| State.Survivors | server/servers/state.go:155-161 | Membership after fan-out is the original members minus exactly those whose write failed, with their connections unchanged. |
| State.ServerState.constructor | server/servers/state.go:40-66 | Seeds one allowed address 172.18.0.1, no visitors, one empty room "jolsho", and one offline stream "jolsho" titled "Will be back tomorrow." with 0 viewers. |
| State.ServerState.IsLive | server/servers/state.go:68-80 | 200 with that stream's record exactly when the name is registered, otherwise 204 with none. Reads the state without changing it. |
| State.ServerState.JoinChat | server/servers/state.go:99-122 | An unknown room gives 400 "Room doesnt exist" and registers nothing. A failed upgrade registers nothing. Otherwise the connection is stored under the remote address, replacing an earlier one, other rooms unchanged, and the session gets the 2 s / burst 5 limiter. Locking is taken as balanced (see `ChatLocks`). |
| State.ServerState.ChatReadError | server/servers/state.go:127-133 | A read error deletes exactly the session's remote address from its room and nothing else. |
| State.ServerState.ChatMessage | server/servers/state.go:134-161 | The limiter records its answer. A refused or undecodable message leaves membership unchanged and writes nothing. Otherwise the stamped message is written once to every member present at the start, sender included, and the room becomes the survivors of that pass. |
| ChatLocks.RequestAsWritten | server/servers/state.go:102-120 | From any lock state: the request waits forever exactly when the registry is write-held, or when it is a join and the registry has a reader or the room is held. An unknown room returns holding one more read lock. A failed upgrade leaves the locks as they were. A join leaves the registry write-locked and the room as it was. |
| ChatLocks.ReadErrorAsWritten | server/servers/state.go:127-130 | From any lock state: a read error waits forever exactly when the room is held; otherwise it leaves the room write-locked and the registry as it was. |
| ChatLocks.FirstJoinKeepsRegistryLocked | server/servers/state.go:102-120 | After the first successful join the registry lock is still write-held. |
| ChatLocks.LaterRequestsBlockAsWritten | server/servers/state.go:102-117 | While the registry is write-held, every chat request waits forever, whatever its room or upgrade. |
| ChatLocks.MissingRoomBlocksJoinAsWritten | server/servers/state.go:102-106 | A request for an unknown room keeps a read hold, and a later successful join then waits forever. |
| ChatLocks.SecondReadErrorBlocksAsWritten | server/servers/state.go:117-130 | A read error keeps the room locked, and a second read error in that room waits forever. As written the state.go:117 leak hides this; with that leak fixed, joins leave the locks free and the second read error waits. |
| ChatLocks.RequestCorrected | server/servers/state.go:102-120 | Corrected: it waits forever under the same condition as the request as written, and whenever it completes the locks are as it found them. |
| ChatLocks.ReadErrorCorrected | server/servers/state.go:127-130 | Corrected: it waits forever exactly when the room is held, and otherwise leaves the locks as it found them. |
| ChatLocks.CorrectedBlocksLikeAsWritten | server/servers/state.go:102-130 | From every lock state, a corrected step waits forever exactly when the step as written does, and both leave the room lock alike; the correction changes only the registry lock left behind. |
| ChatLocks.CorrectedStepBalanced | server/servers/state.go:102-133 | With every lock released on every path, each request and each read error starts and ends with both locks free. |
| ChatLocks.CorrectedNeverBlocks | server/servers/state.go:99-163 | With balanced locking, no sequence of chat requests and read errors ever waits forever, and the locks end free. |
| Nginx.RouteOf | server/servers/nginx.go:21-30 | A URL reaches a handler only when it is exactly one of the five webhook paths, and it reaches that path's handler. |
| Nginx.MainSwitch | server/servers/nginx.go:15-31 | A form that does not parse, or any other URL, gives 400 "Bad Request" with no state change, no filesystem call and no rebuild. Each route has its handler's effect; auth's status is AuthStatusAsWritten's and its filesystem calls are only listings and removals. Only auth touches the filesystem and only publish_done schedules a rebuild. |
| Nginx.Published | server/servers/nginx.go:108-115 | The name maps to exactly {name, live, "Live", 0 viewers}, overwriting any earlier record. Every other key is unchanged. |
| Nginx.Unpublished | server/servers/nginx.go:121-124 | Only the live flag of that record turns false. Name, title, viewers and every other key are unchanged. |
| Nginx.ViewerJoined | server/servers/nginx.go:167-168 | Only that stream's viewer count changes, by +1 modulo 2^32. |
| Nginx.ViewerLeft | server/servers/nginx.go:173-174 | Only that stream's viewer count changes, by -1 modulo 2^32. |
| Nginx.PublishIdempotent | server/servers/nginx.go:108-115 | Publishing twice is the same as publishing once. |
| Nginx.PublishThenDone | server/servers/nginx.go:108-124 | Publish then publish_done leaves an offline record titled "Live" with 0 viewers. |
| Nginx.JoinThenLeave | server/servers/nginx.go:167-177 | A join followed by a leave restores the registry. |
| Nginx.LeaveThenJoin | server/servers/nginx.go:167-177 | A leave followed by a join restores the registry, even from 0 through the wrap-around. |
| Nginx.LeaveAtZeroWraps | server/servers/nginx.go:174 | A leave at 0 viewers gives 4294967295. |
| Nginx.Publish | server/servers/nginx.go:108-119 | Answers "OK" and the registry becomes the published one. |
| Nginx.PublishDone | server/servers/nginx.go:121-127 | Always schedules the rebuild of /var/hls/<name>. A known name is marked offline with "OK"; an unknown one aborts the request and changes nothing. |
| Nginx.NewViewer | server/servers/nginx.go:167-171 | A known name gets one more viewer with "OK"; an unknown one aborts and changes nothing. |
| Nginx.ViewerLeaves | server/servers/nginx.go:173-177 | A known name gets one fewer viewer, modulo 2^32, with "OK"; an unknown one aborts and changes nothing. |
| Nginx.FirstFailure | server/servers/nginx.go:98-104 | The position of the first entry whose removal fails: every earlier removal succeeds. |
| Nginx.ClearDirResult | server/servers/nginx.go:92-106 | ClearDir succeeds exactly when the directory is listed and every entry is removed. Any error it returns is wrapped. |
| Nginx.ClearDir | server/servers/nginx.go:92-106 | Lists the directory, then removes entries in listing order, stopping after the first failing removal, whose wrapped error it returns. |
| Nginx.MissingDirRejectedAsWritten | server/servers/nginx.go:68-72 | As written, a stream directory that does not exist yet makes auth answer 500, whatever mkdir would do. |
| Nginx.AuthStatusAsWritten | server/servers/nginx.go:61-88 | 401 exactly when the address is not allowed. 200 exactly when it is allowed and clearing succeeds, or `os.IsNotExist` accepts the clearing error and mkdir and chmod succeed. Otherwise 500. An allowed address whose clearing fails with a wrapped error always gets 500. |
| Nginx.AuthAdmitsOnlyClearedAsWritten | server/servers/nginx.go:61-88 | As written, auth answers 200 exactly when the address is allowed, the directory was listed and every entry was removed; mkdir and chmod never matter. |
| Nginx.AuthStatus | server/servers/nginx.go:61-88 | Corrected, with `errors.Is` as the existence test: 401 exactly when the address is not allowed. 200 exactly when it is allowed and clearing succeeds, or the directory does not exist and mkdir and chmod succeed. Otherwise 500. |
| Nginx.MissingDirCreated | server/servers/nginx.go:68-83 | With the corrected existence test, a missing directory is created and auth answers 200. |
| Nginx.CreateOps | server/servers/nginx.go:74-77 | mkdir is attempted first, and chmod follows exactly when mkdir succeeded. |
| Nginx.Auth | server/servers/nginx.go:56-89 | A disallowed address gets 401 "Unauthorized" and no filesystem call. Otherwise the status is AuthStatusAsWritten's. Every call touches only /var/hls/<name>, starting with its listing. mkdir happens exactly when `os.IsNotExist` accepts the clearing error, and chmod exactly when mkdir also succeeded. As written, that test never accepts, so auth only lists and removes. |
| Rebuild.SegmentNames | server/servers/nginx.go:138-142 | A name is kept exactly when some listed entry with that name is not a directory and ends in ".ts". |
| Rebuild.SegmentNamesDistinct | server/servers/nginx.go:138-142 | A listing without duplicate names yields each segment once. |
| Rebuild.CollectSegments | server/servers/nginx.go:138-142 | The collecting loop yields the kept names in listing order. |
| Rebuild.SortSlice | server/servers/nginx.go:145-149 | After the in-place sort the array is non-decreasing by the key and a permutation of what it held. |
| Rebuild.InsertNext | server/servers/nginx.go:145-149 | One insertion step: a sorted prefix grows by one position and the array stays a permutation of what it held. |
| Rebuild.SortedPermutationUnique | server/servers/nginx.go:145-149 | With distinct keys, the sorted order of a set of names is unique. |
| Rebuild.NumericOrderExample | server/servers/nginx.go:145-149 | "2.ts", "10.ts", "1.ts" sort as 1, 2, 10. |
| Rebuild.IndexOfNumber | server/servers/nginx.go:146-147 | A segment named "<n>.ts" sorts under n. |
| Rebuild.PlaylistLines | server/servers/nginx.go:152-161 | The playlist has 4 + 2n lines: the fixed header, then "#EXTINF:10," and the name of each segment in order. |
| Rebuild.HeaderText | server/servers/nginx.go:153-156 | The four header lines spell EXTM3U, version 3, media sequence 0 and target duration 10. |
| Rebuild.AppendSegment | server/servers/nginx.go:158-161 | Each segment appends its EXTINF line and its name line to the text. |
| Rebuild.SplitText | server/servers/nginx.go:152-161 | Reading the playlist text back line by line gives the playlist lines. |
| Rebuild.RenderPlaylist | server/servers/nginx.go:152-161 | The builder loop produces the text of the playlist lines. |
| Rebuild.RebuildM3U8 | server/servers/nginx.go:130-165 | A listing error is returned. Otherwise the content written to <dir>/index.m3u8 is the playlist of a numerically sorted permutation of the kept segment names. |
| Web.Consulted | server/servers/web.go:72-78 | The first request from an address creates its limiter at 2 per second with burst 12. Later requests consult the same limiter. No other entry changes. |
| Web.RegistryOnlyGrows | server/servers/web.go:72-76 | Across any requests, no entry is removed or replaced: rate and burst stay the same, and each limiter's answers only grow. |
| Web.RateLimited | server/servers/web.go:70-85 | A refused request gets 429 "Too Many Requests" and the wrapped handler is not called. An allowed one is passed on once. The registry is updated as consulted. |
| Web.HlsPath | server/servers/web.go:92 | One leading "/hls" is removed, or the path is unchanged when it lacks that prefix. |
| Web.HlsHeaders | server/servers/web.go:94-106 | Cache-Control no-cache and CORS "*" are always set. Content-Type is set only for a .m3u8 or .ts extension, to the HLS playlist or MPEG-TS type. |
| Web.ExtMatchesSuffix | server/servers/web.go:100-106 | The extension is ".ts" exactly when the path ends in ".ts", and ".m3u8" exactly when it ends in ".m3u8". |
| Web.ContentTypeBySuffix | server/servers/web.go:100-106 | hlsHandler sets video/mp2t for a trimmed path ending in ".ts" and the playlist type for one ending in ".m3u8", and sets a Content-Type for no other path. |
| Web.TrimKeepsSegmentSuffix | server/servers/web.go:92-106 | Stripping "/hls" never removes a ".ts" suffix. |
| Web.Redirect | server/servers/web.go:19-20 | A 301 whose target, as passed to `http.Redirect`, is "https://" followed by the host and the request URI. |
| Web.RedirectRoundTrip | server/servers/web.go:19-20 | Host and request URI can be read back from the redirect target. |
| Video.SegmentAlias | server/video.go:33 | The alias is "segment-", the decimal rank, then ".ts". |
| Video.SegmentAliasInjective | server/video.go:33-35 | Different ranks get different aliases. |
| Video.Rewritten | server/video.go:30-39 | The served playlist has as many lines as the file. |
| Video.RewrittenAt | server/video.go:30-39 | Line i is copied unchanged unless it ends in ".ts"; then it becomes the alias of its rank among the segment lines, counting from 0. |
| Video.AliasMapKeys | server/video.go:33-34 | One pass records exactly the aliases of ranks 0 to the number of segment lines minus one. |
| Video.AliasMapLookup | server/video.go:33-34 | Each segment line's alias maps to LIVEDIR followed by that line. |
| Video.LiveSegments.constructor | server/video.go:13 | The alias map starts empty. |
| Video.LiveSegments.ServePlaylist | server/video.go:18-40 | An unopenable playlist gives 404 "Playlist not found" and leaves the map unchanged. Otherwise the reply is the rewritten lines, each newline-terminated, with the playlist type. The map gains this pass's aliases, overwriting the same keys and keeping the others. |
| Video.LiveSegments.ServeSegment | server/video.go:41-49 | After stripping one leading "/live/", 404 exactly when the rest is not a recorded alias; otherwise the recorded file. |
| Video.PlaylistThenSegment | server/video.go:18-49 | After a playlist is served, the alias on each of its segment lines resolves to that segment's real file. |

## Left out

- Concurrency is not modelled: goroutines, the real mutexes and the data races between handlers.
  Each handler call is one atomic step. The lock discipline of the chat handler is traced
  separately in `ChatLocks`, one event at a time. `JoinChat`, `ChatReadError` and `ChatMessage`
  model the chat steps under balanced locking; as written, once one join has succeeded every
  later chat request waits forever at the registry's read lock (server/servers/state.go:102).
- The 30-second `time.Sleep` before a rebuild, and its `go` launch, are not modelled.
  `PublishDone` returns the directory whose rebuild it schedules.
- Listener and TLS setup, the static-file routes, the mux registrations and the graceful stopper
  are not modelled (`BuildBasicHttp`, `BuildHttps`, `BuildNginxServer`, `watchStopSever`). The
  composition of `RateLimited` with `MainSwitch` or with the HTTPS mux is therefore not modelled
  either.
- Token-bucket arithmetic (`golang.org/x/time/rate`) is not modelled. Each `Allow()` answer is an
  input, and a limiter records only its rate, burst and past answers.
- JSON is not modelled. Decoding a chat message is an input (`Option<Message>`). `IsLive`
  returns the stream record rather than its encoding.
- The websocket upgrade, reads and writes are outcomes given as inputs, and closing a connection
  is not modelled.
- All filesystem calls are outcomes given as inputs: ReadDir, RemoveAll, Mkdir, Chmod, WriteFile,
  Open, ServeFile and FileServer. The file contents served from `/hls/` and by `serveSegment`
  are not modelled.
- `filepath.Join` path cleaning is not modelled. The rebuild writes to the directory joined with
  "/index.m3u8" without cleaning. ClearDir's error context omits the entry path. auth discards
  that error's text and answers with a fixed body.
- `http.Redirect` writes a small HTML body for GET (HEAD gets only a Content-Type); this is not
  modelled. `Redirection.location` is the target passed to `http.Redirect`; the Location header
  net/http writes is that target with non-ASCII bytes percent-escaped, and that escaping is not
  modelled.
- The headers net/http sets itself on `/hls/` responses are not modelled. For a path that
  hlsHandler gives no Content-Type, `http.FileServer` picks one from the extension or by sniffing
  the content, and a directory listing is text/html. A missing file goes through `http.Error`,
  which replaces any Content-Type with text/plain.
- Headers other than those named are not modelled, such as `http.Error`'s X-Content-Type-Options.
- `bufio.Scanner` is not modelled. The playlist is given as the lines it yields; its
  token-too-long error and its stripping of '\r' are left to that input.
- Query-string parsing (`r.URL.Query().Get("room")`) and form parsing are not modelled. Their
  results are inputs.
- `serveVodPlaylist` and `serveVod`, `server/main.go`, `server/servers/stopper.go` and the UI are
  not part of this model.
- Rebuild.RebuildM3U8: the written order is fixed only up to names with equal sort keys, because
  `sort.Slice` is not stable; `SortSlice` is an insertion sort with that same guarantee.
- State.ServerState.ChatMessage: the fan-out visits members in an arbitrary order, as Go's map
  iteration does. `written` is stated as a duplicate-free list of exactly the members, not a
  particular order.
- State.ServerState.JoinChat: the connection's deferred `Close` is not modelled.
- Logging is not modelled: the `log.Println` and `log.Printf` lines of the chat handler
  (server/servers/state.go:113, 131, 137, 144, 157) and the server start-up messages.

## Findings

| source | as written | input that shows it | evidently intended | confidence | as-written member | corrected member |
|---|---|---|---|---|---|---|
| server/servers/nginx.go:69 | `os.IsNotExist` is applied to ClearDir's error, which `fmt.Errorf("%w")` has wrapped; `os.IsNotExist` does not unwrap, so the mkdir fallback never runs | an allowed `auth` for a new stream name whose directory /var/hls/<name> does not exist: ReadDir fails with ENOENT and auth answers 500 | `errors.Is(err, fs.ErrNotExist)`: the directory is created and auth answers 200 | high, not executed | Nginx.MissingDirRejectedAsWritten | Nginx.MissingDirCreated |
| server/servers/state.go:117 | `connected_mux.Lock()` is never released | two successful chat joins: the second request's RLock waits forever | unlock after registering the connection | high, not executed | ChatLocks.LaterRequestsBlockAsWritten | ChatLocks.CorrectedNeverBlocks |
| server/servers/state.go:104-106 | the early return for an unknown room keeps the read lock | a request for an unknown room, then a successful join: its Lock waits forever | RUnlock before returning | high, not executed | ChatLocks.MissingRoomBlocksJoinAsWritten | ChatLocks.CorrectedNeverBlocks |
| server/servers/state.go:129 | `room.mux.Lock()` on a read error is never released | with the state.go:117 leak fixed, two members of one room each hit a read error: the second Lock at state.go:129 waits forever. As written the state.go:117 leak hides this, since only one session ever joins | unlock after deleting the member | high, not executed | ChatLocks.SecondReadErrorBlocksAsWritten | ChatLocks.CorrectedNeverBlocks |

=== FILE: ChatLocks.dfy ===
/** The lock bookkeeping of HandleChat (server/servers/state.go): the
    registry lock `connected_mux` and the room's own `mux`, both
    sync.RWMutex. Each chat request and each read error takes and releases
    locks along its path; a lock that is never released makes a later
    acquisition wait forever. The functions below trace those paths as
    written and as evidently intended; the ServerState steps in module
    State are atomic, which is what the intended discipline provides.
    Events are taken one at a time: what the corrected discipline is shown
    to guarantee is that every path releases what it takes, not freedom
    from deadlock under arbitrary interleavings. */
module ChatLocks {
  import opened GoStd

  /** A sync.RWMutex: how many read holds it has and whether it is
      write-locked. */
  datatype RWMutex = RWMutex(readers: nat, writer: bool)

  const UNLOCKED := RWMutex(0, false)

  /** The registry lock and the lock of the (single, seeded) room. */
  datatype Locks = Locks(registry: RWMutex, room: RWMutex)

  const FREE := Locks(UNLOCKED, UNLOCKED)

  /** RLock; None when it waits forever (a writer holds the lock and, one
      event at a time, nothing else runs to release it). Events here run
      one at a time, so no Lock is ever left waiting; sync.RWMutex also
      makes a new RLock wait behind a waiting Lock, which this model does
      not represent and which only adds blocked states. */
  function RLock(m: RWMutex): (r: Option<RWMutex>)
    ensures r.None? <==> m.writer
    ensures r.Some? ==> r.value.readers == m.readers + 1 && !r.value.writer
  {
    if m.writer then None else Some(m.(readers := m.readers + 1))
  }

  function RUnlock(m: RWMutex): (r: RWMutex)
    requires m.readers > 0
    ensures r.readers == m.readers - 1 && r.writer == m.writer
  {
    m.(readers := m.readers - 1)
  }

  /** Lock; None when it waits forever (any reader or writer holds it). */
  function Lock(m: RWMutex): (r: Option<RWMutex>)
    ensures r.None? <==> m.writer || m.readers > 0
    ensures r.Some? ==> r.value == RWMutex(0, true)
  {
    if m.writer || m.readers > 0 then None else Some(RWMutex(0, true))
  }

  function Unlock(m: RWMutex): (r: RWMutex)
    requires m.writer
    ensures !r.writer && r.readers == m.readers
  {
    m.(writer := false)
  }

  // ---------------------------------------------------------------- as written

  /** The locks after one chat request as the source has it, or None when
      the request waits forever: RLock the registry; an unknown room returns
      still holding it; otherwise RUnlock; a failed upgrade returns; a
      successful one write-locks the registry for good and locks and unlocks
      the room around the insertion. */
  function RequestAsWritten(l: Locks, roomExists: bool, upgraded: bool): (r: Option<Locks>)
    ensures r.None? <==>
      l.registry.writer || (roomExists && upgraded && (l.registry.readers > 0 || l.room.writer || l.room.readers > 0))
    // an unknown room returns still holding one more read lock
    ensures r.Some? && !roomExists ==> r.value == l.(registry := RWMutex(l.registry.readers + 1, false))
    // a failed upgrade releases what it took
    ensures r.Some? && roomExists && !upgraded ==> r.value == l
    // a join leaves the registry write-locked and the room as it was
    ensures r.Some? && roomExists && upgraded ==> r.value.registry.writer && r.value.room == l.room
  {
    match RLock(l.registry)
    case None => None
    case Some(held) =>
      if !roomExists then Some(l.(registry := held))
      else
        var released := RUnlock(held);
        if !upgraded then Some(l.(registry := released))
        else
          match Lock(released)
          case None => None
          case Some(writeHeld) =>
            match Lock(l.room)
            case None => None
            case Some(roomHeld) => Some(Locks(writeHeld, Unlock(roomHeld)))
  }

  /** A read error as the source has it: the room is locked and never
      unlocked again. */
  function ReadErrorAsWritten(l: Locks): (r: Option<Locks>)
    ensures r.None? <==> l.room.writer || l.room.readers > 0
    ensures r.Some? ==> r.value.room.writer && r.value.registry == l.registry
  {
    match Lock(l.room)
    case None => None
    case Some(roomHeld) => Some(l.(room := roomHeld))
  }

  /** The first successful join leaves the registry write-locked. */
  lemma FirstJoinKeepsRegistryLocked()
    ensures RequestAsWritten(FREE, true, true) == Some(Locks(RWMutex(0, true), UNLOCKED))
  {
  }

  /** Once the registry is write-locked, every chat request waits forever,
      whatever its room and whatever its upgrade would do: after the first
      successful join nobody else can chat. */
  lemma LaterRequestsBlockAsWritten(l: Locks, roomExists: bool, upgraded: bool)
    requires l.registry.writer
    ensures RequestAsWritten(l, roomExists, upgraded) == None
  {
  }

  /** A request for an unknown room keeps a read hold on the registry, so
      a later join that gets as far as the write lock waits forever. */
  lemma MissingRoomBlocksJoinAsWritten()
    ensures RequestAsWritten(FREE, false, true) == Some(Locks(RWMutex(1, false), UNLOCKED))
    ensures RequestAsWritten(Locks(RWMutex(1, false), UNLOCKED), true, true) == None
  {
  }

  /** A read error keeps the room locked, so a second read error in the
      same room waits forever. As written this stays hidden behind the
      registry leak at state.go:117: after the first join every later
      request waits, so only one session ever reaches the read loop. With
      that leak fixed, joins leave the locks free, two members of one room
      can each hit a read error, and the second one waits forever. */
  lemma SecondReadErrorBlocksAsWritten()
    ensures RequestCorrected(FREE, true, true) == Some(FREE)
    ensures ReadErrorAsWritten(FREE) == Some(Locks(UNLOCKED, RWMutex(0, true)))
    ensures ReadErrorAsWritten(Locks(UNLOCKED, RWMutex(0, true))) == None
  {
  }

  // ---------------------------------------------------------------- corrected

  /** A chat request releasing every lock it takes on every path. */
  function RequestCorrected(l: Locks, roomExists: bool, upgraded: bool): (r: Option<Locks>)
    ensures r.None? <==>
      l.registry.writer || (roomExists && upgraded && (l.registry.readers > 0 || l.room.writer || l.room.readers > 0))
    // every path leaves the locks as it found them
    ensures r.Some? ==> r.value == l
  {
    match RLock(l.registry)
    case None => None
    case Some(held) =>
      var released := RUnlock(held);
      if !roomExists || !upgraded then Some(l.(registry := released))
      else
        match Lock(released)
        case None => None
        case Some(writeHeld) =>
          match Lock(l.room)
          case None => None
          case Some(roomHeld) => Some(Locks(Unlock(writeHeld), Unlock(roomHeld)))
  }

  /** A read error unlocking the room after the deletion. */
  function ReadErrorCorrected(l: Locks): (r: Option<Locks>)
    ensures r.None? <==> l.room.writer || l.room.readers > 0
    ensures r.Some? ==> r.value == l
  {
    match Lock(l.room)
    case None => None
    case Some(roomHeld) => Some(l.(room := Unlock(roomHeld)))
  }

  /** The correction changes only what is released: from any lock state, a
      corrected step waits forever exactly when the step as written does,
      and where both complete they differ only in the registry lock (the
      read hold kept for an unknown room, the write lock kept by a join). */
  lemma CorrectedBlocksLikeAsWritten(l: Locks, roomExists: bool, upgraded: bool)
    ensures RequestCorrected(l, roomExists, upgraded).None? <==> RequestAsWritten(l, roomExists, upgraded).None?
    ensures ReadErrorCorrected(l).None? <==> ReadErrorAsWritten(l).None?
    ensures RequestAsWritten(l, roomExists, upgraded).Some? ==>
      RequestAsWritten(l, roomExists, upgraded).value.room == RequestCorrected(l, roomExists, upgraded).value.room
  {
  }

  /** The chat events that touch these locks, one at a time. */
  datatype ChatEvent = Request(roomExists: bool, upgraded: bool) | ReadError

  /** The locks after a run of events under the corrected discipline, or
      None once one of them waits forever. */
  function RunCorrected(l: Locks, events: seq<ChatEvent>): Option<Locks>
    decreases |events|
  {
    if events == [] then Some(l)
    else
      var step := match events[0]
        case Request(e, u) => RequestCorrected(l, e, u)
        case ReadError => ReadErrorCorrected(l);
      match step
      case None => None
      case Some(l') => RunCorrected(l', events[1..])
  }

  /** Each corrected step leaves free locks free. */
  lemma CorrectedStepBalanced(event: ChatEvent)
    ensures event.Request? ==> RequestCorrected(FREE, event.roomExists, event.upgraded) == Some(FREE)
    ensures event.ReadError? ==> ReadErrorCorrected(FREE) == Some(FREE)
  {
  }

  /** Under the corrected discipline no sequence of chat events, each run
      to completion before the next, ever waits forever, and the locks end
      free. Interleaved events are not covered. */
  lemma {:induction false} CorrectedNeverBlocks(events: seq<ChatEvent>)
    ensures RunCorrected(FREE, events) == Some(FREE)
    decreases |events|
  {
    if events != [] {
      CorrectedStepBalanced(events[0]);
      CorrectedNeverBlocks(events[1..]);
    }
  }
}

=== FILE: GoStd.dfy ===
/** The small part of Go's standard library and runtime that the server's
    handlers lean on, modelled as values: optional and fallible results,
    the `strings` prefix/suffix helpers, decimal formatting and
    `strconv.Atoi`, `filepath.Ext`, `uint32` arithmetic, the `os` error
    values with `os.IsNotExist` and `errors.Is`, and HTTP replies. */
module GoStd {

  datatype Option<+T> = None | Some(value: T)

  datatype Result<+T, +E> = Ok(value: T) | Err(error: E)

  // ---------------------------------------------------------------- strings

  predicate HasPrefix(s: string, prefix: string) {
    |prefix| <= |s| && s[..|prefix|] == prefix
  }

  predicate HasSuffix(s: string, suffix: string) {
    |suffix| <= |s| && s[|s| - |suffix|..] == suffix
  }

  /** strings.TrimPrefix: removes one leading `prefix`, if present. */
  function TrimPrefix(s: string, prefix: string): (r: string)
    ensures HasPrefix(s, prefix) ==> prefix + r == s
    ensures !HasPrefix(s, prefix) ==> r == s
  {
    if HasPrefix(s, prefix) then s[|prefix|..] else s
  }

  /** strings.TrimSuffix: removes one trailing `suffix`, if present. */
  function TrimSuffix(s: string, suffix: string): (r: string)
    ensures HasSuffix(s, suffix) ==> r + suffix == s
    ensures !HasSuffix(s, suffix) ==> r == s
  {
    if HasSuffix(s, suffix) then s[..|s| - |suffix|] else s
  }

  // ---------------------------------------------------------------- decimal numbers

  predicate IsDigit(c: char) {
    '0' <= c <= '9'
  }

  predicate AllDigits(s: string) {
    forall i :: 0 <= i < |s| ==> IsDigit(s[i])
  }

  function DigitValue(c: char): nat
    requires IsDigit(c)
  {
    c as int - '0' as int
  }

  /** The value of a string of decimal digits, most significant first. */
  function DigitsValue(s: string): nat
    requires AllDigits(s)
  {
    if s == [] then 0 else DigitsValue(s[..|s| - 1]) * 10 + DigitValue(s[|s| - 1])
  }

  /** Length of the longest prefix of `s` made of decimal digits. */
  function DigitPrefixLength(s: string): (n: nat)
    ensures n <= |s| && AllDigits(s[..n])
    ensures n < |s| ==> !IsDigit(s[n])
  {
    if s == [] || !IsDigit(s[0]) then 0
    else
      var n := 1 + DigitPrefixLength(s[1..]);
      assert s[..n] == [s[0]] + s[1..][..n - 1];
      n
  }

  /** fmt's `%d` for a non-negative int. */
  function Itoa(n: nat): (s: string)
    ensures |s| > 0 && AllDigits(s)
    ensures DigitsValue(s) == n
  {
    var d := ('0' as int + n % 10) as char;
    var s := (if n < 10 then [] else Itoa(n / 10)) + [d];
    assert s[..|s| - 1] == (if n < 10 then [] else Itoa(n / 10));
    s
  }

  const MAX_INT64: int := 0x7FFF_FFFF_FFFF_FFFF
  const MIN_INT64: int := -0x8000_0000_0000_0000
  const MAX_UINT64: int := 0xFFFF_FFFF_FFFF_FFFF

  /** ParseInt's saturation of an unsigned magnitude to the int64 range. */
  function ClampInt64(negative: bool, magnitude: nat): (r: int)
    ensures MIN_INT64 <= r <= MAX_INT64
    ensures !negative && magnitude <= MAX_INT64 ==> r == magnitude
    ensures negative && magnitude <= -MIN_INT64 ==> r == -(magnitude as int)
  {
    if negative then (if magnitude > -MIN_INT64 then MIN_INT64 else -(magnitude as int))
    else (if magnitude > MAX_INT64 then MAX_INT64 else magnitude)
  }

  /** The int that `strconv.Atoi(s)` returns on a 64-bit platform, its
      error dropped as `n, _ := strconv.Atoi(s)` does. An optional sign is
      followed by at least one decimal digit; anything else is a syntax error
      and yields 0. Out-of-range values saturate. ParseUint scans left to
      right and reports a range error as soon as the digits read so far
      exceed 2^64-1, before it meets a later non-digit; the value of the digit
      prefix is monotone, so "the prefix before the first non-digit overflows"
      captures exactly that order. */
  function Atoi(s: string): (r: int)
    ensures MIN_INT64 <= r <= MAX_INT64
    ensures |s| > 0 && AllDigits(s) && DigitsValue(s) <= MAX_INT64 ==> r == DigitsValue(s)
    // a well-formed number: its signed value, saturated to the int64 range
    ensures |Unsigned(s)| > 0 && AllDigits(Unsigned(s)) && DigitsValue(Unsigned(s)) <= MAX_INT64 ==>
      r == (if Negative(s) then -(DigitsValue(Unsigned(s)) as int) else DigitsValue(Unsigned(s)))
    ensures |Unsigned(s)| > 0 && AllDigits(Unsigned(s)) && DigitsValue(Unsigned(s)) > MAX_INT64 ==>
      r == (if Negative(s) then MIN_INT64 else MAX_INT64)
    // a syntax error ("", "-", "+x", "12abc"): 0, unless the digits before
    // the offending character already overflowed, which saturates
    ensures !(|Unsigned(s)| > 0 && AllDigits(Unsigned(s))) ==>
      var digits := Unsigned(s)[..DigitPrefixLength(Unsigned(s))];
      r == (if DigitsValue(digits) <= MAX_UINT64 then 0 else if Negative(s) then MIN_INT64 else MAX_INT64)
  {
    var body := Unsigned(s);
    var n := DigitPrefixLength(body);
    if n < |body| then
      // a syntax error, unless the digits before it already overflowed
      if DigitsValue(body[..n]) > MAX_UINT64 then ClampInt64(Negative(s), MAX_UINT64 + 1) else 0
    else if body == [] then 0
    else
      assert body[..n] == body;
      ClampInt64(Negative(s), DigitsValue(body))
  }

  /** Whether `s` starts with a minus sign. */
  predicate Negative(s: string) {
    |s| > 0 && s[0] == '-'
  }

  /** `s` without its optional leading sign. */
  function Unsigned(s: string): (u: string)
    ensures |s| > 0 && (s[0] == '+' || s[0] == '-') ==> s == [s[0]] + u
    ensures |s| == 0 || (s[0] != '+' && s[0] != '-') ==> u == s
  {
    if |s| > 0 && (s[0] == '+' || s[0] == '-') then s[1..] else s
  }

  /** A few values the contract pins down: a sign alone, a digit run cut
      short and an empty string are syntax errors. */
  lemma AtoiExamples()
    ensures Atoi("") == 0 && Atoi("-") == 0 && Atoi("+x") == 0 && Atoi("12abc") == 0
    ensures Atoi("-5") == -5 && Atoi("+42") == 42
  {
    assert Unsigned("12abc")[..DigitPrefixLength(Unsigned("12abc"))] == "12";
    assert DigitsValue("12") == 12;
    assert DigitsValue("5") == 5;
    assert DigitsValue("42") == 42;
  }

  // ---------------------------------------------------------------- paths

  /** filepath.Ext: the suffix of `path` from the last '.' in its final
      element, or "" when that element has no '.'. */
  function Ext(path: string): (e: string)
    ensures e == [] || (e[0] == '.' && HasSuffix(path, e))
    ensures forall i :: 0 < i < |e| ==> e[i] != '.' && e[i] != '/'
  {
    ExtBefore(path, |path|)
  }

  /** The scan of filepath.Ext, from position i - 1 down to the start of
      the final element; nothing after position i - 1 is a '.' or a '/'. */
  function ExtBefore(path: string, i: nat): (e: string)
    requires i <= |path|
    requires forall k :: i <= k < |path| ==> path[k] != '.' && path[k] != '/'
    ensures e == [] || (e[0] == '.' && HasSuffix(path, e))
    ensures forall k :: 0 < k < |e| ==> e[k] != '.' && e[k] != '/'
    decreases i
  {
    if i == 0 || path[i - 1] == '/' then []
    else if path[i - 1] == '.' then path[i - 1..]
    else ExtBefore(path, i - 1)
  }

  /** A path ending in an extension-shaped suffix (a '.' followed by no '.'
      and no '/') has exactly that suffix as its filepath.Ext. */
  lemma ExtOfSuffix(path: string, ext: string)
    requires |ext| > 0 && ext[0] == '.' && HasSuffix(path, ext)
    requires forall k :: 0 < k < |ext| ==> ext[k] != '.' && ext[k] != '/'
    ensures Ext(path) == ext
  {
    ExtBeforeFinds(path, ext, |path|);
  }

  lemma {:induction false} ExtBeforeFinds(path: string, ext: string, i: nat)
    requires |ext| > 0 && ext[0] == '.' && HasSuffix(path, ext)
    requires forall k :: 0 < k < |ext| ==> ext[k] != '.' && ext[k] != '/'
    requires |path| - |ext| < i <= |path|
    ensures forall k :: i <= k < |path| ==> path[k] != '.' && path[k] != '/'
    ensures ExtBefore(path, i) == ext
    decreases i
  {
    var start := |path| - |ext|;
    assert forall k :: start <= k < |path| ==> path[k] == ext[k - start];
    if i - 1 != start {
      ExtBeforeFinds(path, ext, i - 1);
    }
  }

  // ---------------------------------------------------------------- uint32

  const UINT32_MODULUS: int := 0x1_0000_0000

  newtype uint32 = x: int | 0 <= x < 0x1_0000_0000

  /** `v++` on a uint32: wraps from 2^32-1 to 0. */
  function Inc32(v: uint32): (r: uint32)
    ensures r as int == (v as int + 1) % UINT32_MODULUS
  {
    if v == 0xFFFF_FFFF then 0 else v + 1
  }

  /** `v--` on a uint32: wraps from 0 to 2^32-1. */
  function Dec32(v: uint32): (r: uint32)
    ensures r as int == (v as int - 1) % UINT32_MODULUS
  {
    if v == 0 then 0xFFFF_FFFF else v - 1
  }

  // ---------------------------------------------------------------- os errors

  /** The syscall errno carried by an *os.PathError. */
  datatype Errno = ENOENT | EEXIST | EACCES | ENOTDIR | EIO

  /** The error values the handlers see: an *os.PathError from the os
      package, or an error wrapped with fmt.Errorf's `%w` verb. */
  datatype GoError =
    | PathError(op: string, path: string, errno: Errno)
    | Wrapped(context: string, inner: GoError)

  /** os.IsNotExist: it looks inside an *os.PathError only; it does not
      follow the `%w` wrapping of fmt.Errorf. */
  predicate OsIsNotExist(e: GoError) {
    e.PathError? && e.errno == ENOENT
  }

  /** errors.Is(e, fs.ErrNotExist): follows the whole wrap chain. */
  predicate ErrorsIsNotExist(e: GoError) {
    match e
    case PathError(_, _, errno) => errno == ENOENT
    case Wrapped(_, inner) => ErrorsIsNotExist(inner)
  }

  /** An entry of an os.ReadDir listing. */
  datatype DirEntry = DirEntry(name: string, isDir: bool)

  // ---------------------------------------------------------------- HTTP

  const StatusOK := 200
  const StatusNoContent := 204
  const StatusMovedPermanently := 301
  const StatusBadRequest := 400
  const StatusUnauthorized := 401
  const StatusNotFound := 404
  const StatusTooManyRequests := 429
  const StatusInternalServerError := 500

  /** The MIME type of an HLS playlist (RFC 8216, section 4). */
  const PLAYLIST_TYPE := "application/vnd.apple.mpegurl"

  /** What a handler sends back: a status line and body, or nothing at all
      when the handler panicked and net/http recovered the panic by closing
      the connection. */
  datatype Reply = Reply(status: int, body: string) | Aborted

  /** http.Error writes the message followed by a newline. */
  function HttpError(message: string, code: int): (r: Reply)
    ensures r.Reply? && r.status == code && r.body == message + "\n"
  {
    Reply(code, message + "\n")
  }
}

=== FILE: Nginx.dfy ===
/** The ingestion webhooks (server/servers/nginx.go): the RTMP ingestion
    process posts form-encoded callbacks; mainSwitch routes them to auth,
    publish, publish_done, new_viewer and viewer_left, which check the
    ingestion address and prepare the stream's directory, or update the
    stream registry. Filesystem outcomes are inputs; a scheduled playlist
    rebuild is returned as the directory it will rebuild (module Rebuild). */
module Nginx {
  import opened GoStd
  import opened State

  // ---------------------------------------------------------------- routing

  datatype Route = AuthRoute | NewViewerRoute | ViewerLeftRoute | PublishRoute | PublishDoneRoute

  function RoutePath(r: Route): string {
    match r
    case AuthRoute => "/auth"
    case NewViewerRoute => "/new_viewer"
    case ViewerLeftRoute => "/viewer_left"
    case PublishRoute => "/publish"
    case PublishDoneRoute => "/publish_done"
  }

  /** mainSwitch's switch on r.URL.String(): an exact match, query string
      included. */
  function RouteOf(url: string): (r: Option<Route>)
    ensures r.Some? ==> RoutePath(r.value) == url
    ensures r.None? ==> forall route: Route :: RoutePath(route) != url
  {
    if url == "/auth" then Some(AuthRoute)
    else if url == "/new_viewer" then Some(NewViewerRoute)
    else if url == "/viewer_left" then Some(ViewerLeftRoute)
    else if url == "/publish" then Some(PublishRoute)
    else if url == "/publish_done" then Some(PublishDoneRoute)
    else None
  }

  /** The parsed form; r.FormValue of a missing key is "". */
  type Form = map<string, string>

  function FormValue(form: Form, key: string): string {
    if key in form then form[key] else ""
  }

  const OK_REPLY := Reply(StatusOK, "OK")
  const BAD_REQUEST := HttpError("Bad Request", StatusBadRequest)
  const UNAUTHORIZED := Reply(StatusUnauthorized, "Unauthorized")
  const CLEAR_DIR_ERROR := Reply(StatusInternalServerError, "ClearDir Error")

  /** Where a stream's segments and playlist live. */
  const HLS_ROOT := "/var/hls/"

  // ---------------------------------------------------------------- stream registry

  const LIVE_TITLE := "Live"

  /** publish: a fresh live record under `name`, replacing any earlier one. */
  function Published(streams: map<string, Stream>, name: string): (r: map<string, Stream>)
    ensures r.Keys == streams.Keys + {name}
    ensures r[name] == Stream(name, true, LIVE_TITLE, 0)
    ensures forall k :: k in streams && k != name ==> r[k] == streams[k]
  {
    streams[name := Stream(name, true, LIVE_TITLE, 0)]
  }

  /** publish_done: the record goes offline, nothing else about it changes. */
  function Unpublished(streams: map<string, Stream>, name: string): (r: map<string, Stream>)
    requires name in streams
    ensures r.Keys == streams.Keys
    ensures !r[name].isLive
    ensures r[name].name == streams[name].name && r[name].title == streams[name].title
    ensures r[name].viewers == streams[name].viewers
    ensures forall k :: k in streams && k != name ==> r[k] == streams[k]
  {
    streams[name := streams[name].(isLive := false)]
  }

  /** new_viewer: the count goes up by one, modulo 2^32. */
  function ViewerJoined(streams: map<string, Stream>, name: string): (r: map<string, Stream>)
    requires name in streams
    ensures r.Keys == streams.Keys
    ensures r[name].viewers as int == (streams[name].viewers as int + 1) % UINT32_MODULUS
    ensures r[name] == streams[name].(viewers := r[name].viewers)
    ensures forall k :: k in streams && k != name ==> r[k] == streams[k]
  {
    streams[name := streams[name].(viewers := Inc32(streams[name].viewers))]
  }

  /** viewer_left: the count goes down by one, modulo 2^32. */
  function ViewerLeft(streams: map<string, Stream>, name: string): (r: map<string, Stream>)
    requires name in streams
    ensures r.Keys == streams.Keys
    ensures r[name].viewers as int == (streams[name].viewers as int - 1) % UINT32_MODULUS
    ensures r[name] == streams[name].(viewers := r[name].viewers)
    ensures forall k :: k in streams && k != name ==> r[k] == streams[k]
  {
    streams[name := streams[name].(viewers := Dec32(streams[name].viewers))]
  }

  /** Publishing twice is publishing once. */
  lemma PublishIdempotent(streams: map<string, Stream>, name: string)
    ensures Published(Published(streams, name), name) == Published(streams, name)
  {
  }

  /** A publish followed by its publish_done leaves an offline record with
      the "Live" title and no viewers. */
  lemma PublishThenDone(streams: map<string, Stream>, name: string)
    ensures name in Published(streams, name)
    ensures Unpublished(Published(streams, name), name)[name] == Stream(name, false, LIVE_TITLE, 0)
  {
  }

  /** A viewer joining and then leaving restores the registry. */
  lemma JoinThenLeave(streams: map<string, Stream>, name: string)
    requires name in streams
    ensures ViewerLeft(ViewerJoined(streams, name), name) == streams
  {
    var r := ViewerLeft(ViewerJoined(streams, name), name);
    assert r[name] == streams[name];
    assert r.Keys == streams.Keys;
  }

  /** A viewer leaving and then joining restores the registry, even from 0
      viewers, through the wrap-around. */
  lemma LeaveThenJoin(streams: map<string, Stream>, name: string)
    requires name in streams
    ensures ViewerJoined(ViewerLeft(streams, name), name) == streams
  {
    var r := ViewerJoined(ViewerLeft(streams, name), name);
    assert r[name] == streams[name];
    assert r.Keys == streams.Keys;
  }

  /** A leave with no viewers counted wraps to 4294967295. */
  lemma LeaveAtZeroWraps(streams: map<string, Stream>, name: string)
    requires name in streams && streams[name].viewers == 0
    ensures ViewerLeft(streams, name)[name].viewers == 0xFFFF_FFFF
  {
  }

  // ---------------------------------------------------------------- handlers

  /** publish. */
  method Publish(state: ServerState, form: Form) returns (reply: Reply)
    modifies state`streams
    ensures reply == OK_REPLY
    ensures state.streams == Published(old(state.streams), FormValue(form, "name"))
  {
    var name := FormValue(form, "name");
    var stream := Stream(name, true, LIVE_TITLE, 0);
    state.streams := state.streams[stream.name := stream];
    reply := OK_REPLY;
  }

  /** publish_done: schedules the rebuild of the stream's directory first,
      then marks the record offline; with no record under that name the
      dereference panics and the request is aborted, the rebuild still
      scheduled. */
  method PublishDone(state: ServerState, form: Form) returns (reply: Reply, rebuild: string)
    modifies state`streams
    ensures rebuild == HLS_ROOT + FormValue(form, "name")
    ensures FormValue(form, "name") in old(state.streams) ==>
      reply == OK_REPLY && state.streams == Unpublished(old(state.streams), FormValue(form, "name"))
    ensures FormValue(form, "name") !in old(state.streams) ==>
      reply == Aborted && state.streams == old(state.streams)
  {
    var name := FormValue(form, "name");
    rebuild := HLS_ROOT + name;
    if name !in state.streams {
      return Aborted, rebuild;
    }
    state.streams := state.streams[name := state.streams[name].(isLive := false)];
    reply := OK_REPLY;
  }

  /** new_viewer; aborted (nil dereference) when the stream is unknown. */
  method NewViewer(state: ServerState, form: Form) returns (reply: Reply)
    modifies state`streams
    ensures FormValue(form, "name") in old(state.streams) ==>
      reply == OK_REPLY && state.streams == ViewerJoined(old(state.streams), FormValue(form, "name"))
    ensures FormValue(form, "name") !in old(state.streams) ==>
      reply == Aborted && state.streams == old(state.streams)
  {
    var name := FormValue(form, "name");
    if name !in state.streams {
      return Aborted;
    }
    var s := state.streams[name];
    state.streams := state.streams[name := s.(viewers := Inc32(s.viewers))];
    reply := OK_REPLY;
  }

  /** viewer_left; aborted (nil dereference) when the stream is unknown. */
  method ViewerLeaves(state: ServerState, form: Form) returns (reply: Reply)
    modifies state`streams
    ensures FormValue(form, "name") in old(state.streams) ==>
      reply == OK_REPLY && state.streams == ViewerLeft(old(state.streams), FormValue(form, "name"))
    ensures FormValue(form, "name") !in old(state.streams) ==>
      reply == Aborted && state.streams == old(state.streams)
  {
    var name := FormValue(form, "name");
    if name !in state.streams {
      return Aborted;
    }
    var s := state.streams[name];
    state.streams := state.streams[name := s.(viewers := Dec32(s.viewers))];
    reply := OK_REPLY;
  }

  // ---------------------------------------------------------------- directory preparation

  /** A filesystem call made while preparing a stream's directory. */
  datatype FsOp = ReadDir(dir: string) | RemoveEntry(dir: string, entry: string) | Mkdir(dir: string) | Chmod(dir: string)

  /** The outcomes the filesystem gives one auth request: the listing of the
      stream's directory, the entries whose os.RemoveAll fails, and the
      results of os.Mkdir and os.Chmod. */
  datatype FsOutcomes = FsOutcomes(
    listing: Result<seq<DirEntry>, GoError>,
    removeFailures: map<string, GoError>,
    mkdir: Option<GoError>,
    chmod: Option<GoError>)

  /** The position of the first entry whose removal fails, or the length of
      the listing when none does. */
  function FirstFailure(entries: seq<DirEntry>, failures: map<string, GoError>): (k: nat)
    ensures k <= |entries|
    ensures forall i :: 0 <= i < k ==> entries[i].name !in failures
    ensures k < |entries| ==> entries[k].name in failures
  {
    if entries == [] || entries[0].name in failures then 0
    else 1 + FirstFailure(entries[1..], failures)
  }

  /** The error ClearDir returns: the wrapped ReadDir error, or the wrapped
      error of the first failing removal, or none. */
  function ClearDirResult(listing: Result<seq<DirEntry>, GoError>, failures: map<string, GoError>): (err: Option<GoError>)
    ensures err.None? <==> listing.Ok? && forall e :: e in listing.value ==> e.name !in failures
    ensures err.Some? ==> err.value.Wrapped?
  {
    match listing
    case Err(e) => Some(Wrapped("failed to read directory", e))
    case Ok(entries) =>
      var k := FirstFailure(entries, failures);
      if k < |entries| then Some(Wrapped("failed to remove", failures[entries[k].name])) else None
  }

  function RemoveOps(dir: string, entries: seq<DirEntry>): (ops: seq<FsOp>)
    ensures |ops| == |entries|
    ensures forall i :: 0 <= i < |entries| ==> ops[i] == RemoveEntry(dir, entries[i].name)
  {
    seq(|entries|, i requires 0 <= i < |entries| => RemoveEntry(dir, entries[i].name))
  }

  /** ClearDir: removes the directory's entries in listing order, stopping at
      the first removal that fails. */
  method ClearDir(dir: string, listing: Result<seq<DirEntry>, GoError>, removeFailures: map<string, GoError>)
    returns (err: Option<GoError>, ops: seq<FsOp>)
    ensures err == ClearDirResult(listing, removeFailures)
    ensures listing.Err? ==> ops == [ReadDir(dir)]
    ensures listing.Ok? ==>
      var k := FirstFailure(listing.value, removeFailures);
      ops == [ReadDir(dir)] + RemoveOps(dir, listing.value[..if k < |listing.value| then k + 1 else k])
  {
    ops := [ReadDir(dir)];
    if listing.Err? {
      return Some(Wrapped("failed to read directory", listing.error)), ops;
    }
    var entries := listing.value;
    var i := 0;
    while i < |entries|
      invariant 0 <= i <= |entries|
      invariant forall j :: 0 <= j < i ==> entries[j].name !in removeFailures
      invariant ops == [ReadDir(dir)] + RemoveOps(dir, entries[..i])
    {
      ops := ops + [RemoveEntry(dir, entries[i].name)];
      assert RemoveOps(dir, entries[..i + 1]) == RemoveOps(dir, entries[..i]) + [RemoveEntry(dir, entries[i].name)];
      if entries[i].name in removeFailures {
        return Some(Wrapped("failed to remove", removeFailures[entries[i].name])), ops;
      }
      i := i + 1;
    }
    return None, ops;
  }

  predicate Allowed(allowedIps: map<string, bool>, addr: string) {
    addr in allowedIps && allowedIps[addr]
  }

  /** auth's status as the source has it: the fallback to mkdir is guarded
      by os.IsNotExist applied to ClearDir's error, which does not look
      through the wrapping ClearDir adds. */
  function AuthStatusAsWritten(allowed: bool, cleared: Option<GoError>, mkdir: Option<GoError>, chmod: Option<GoError>): (s: int)
    ensures s == StatusOK || s == StatusUnauthorized || s == StatusInternalServerError
    ensures s == StatusUnauthorized <==> !allowed
    ensures s == StatusOK <==>
      allowed && (cleared.None? || (OsIsNotExist(cleared.value) && mkdir.None? && chmod.None?))
    // every error ClearDir returns is wrapped, so it always means 500
    ensures allowed && cleared.Some? && cleared.value.Wrapped? ==> s == StatusInternalServerError
  {
    if !allowed then StatusUnauthorized
    else if cleared.None? then StatusOK
    else if !OsIsNotExist(cleared.value) then StatusInternalServerError
    else if mkdir.Some? || chmod.Some? then StatusInternalServerError
    else StatusOK
  }

  /** As written, auth admits an allowed address exactly when its stream
      directory was listed and emptied; the outcome of mkdir never matters. */
  lemma AuthAdmitsOnlyClearedAsWritten(allowed: bool, listing: Result<seq<DirEntry>, GoError>,
                                       failures: map<string, GoError>, mkdir: Option<GoError>, chmod: Option<GoError>)
    ensures AuthStatusAsWritten(allowed, ClearDirResult(listing, failures), mkdir, chmod) == StatusOK
      <==> allowed && listing.Ok? && forall e :: e in listing.value ==> e.name !in failures
  {
  }

  /** As written, the mkdir fallback never runs: a stream directory that
      does not exist yet makes auth answer 500, however mkdir would go. */
  lemma MissingDirRejectedAsWritten(dir: string, failures: map<string, GoError>, mkdir: Option<GoError>, chmod: Option<GoError>)
    ensures AuthStatusAsWritten(true, ClearDirResult(Err(PathError("open", dir, ENOENT)), failures), mkdir, chmod)
      == StatusInternalServerError
  {
  }

  /** Corrected: auth's status with the "does not exist" test seeing
      through the wrapping (errors.Is). */
  function AuthStatus(allowed: bool, cleared: Option<GoError>, mkdir: Option<GoError>, chmod: Option<GoError>): (s: int)
    ensures s == StatusOK || s == StatusUnauthorized || s == StatusInternalServerError
    ensures s == StatusUnauthorized <==> !allowed
    ensures s == StatusOK <==>
      allowed && (cleared.None? || (ErrorsIsNotExist(cleared.value) && mkdir.None? && chmod.None?))
  {
    if !allowed then StatusUnauthorized
    else if cleared.None? then StatusOK
    else if !ErrorsIsNotExist(cleared.value) then StatusInternalServerError
    else if mkdir.Some? || chmod.Some? then StatusInternalServerError
    else StatusOK
  }

  /** Corrected: a directory that does not exist yet is created, and auth
      answers 200 when mkdir and chmod succeed. */
  lemma MissingDirCreated(dir: string, failures: map<string, GoError>)
    ensures AuthStatus(true, ClearDirResult(Err(PathError("open", dir, ENOENT)), failures), None, None) == StatusOK
  {
    assert ErrorsIsNotExist(Wrapped("failed to read directory", PathError("open", dir, ENOENT)));
  }

  /** The filesystem calls of auth's mkdir fallback: mkdir, then chmod only
      when mkdir succeeded. */
  function CreateOps(dir: string, mkdir: Option<GoError>): (ops: seq<FsOp>)
    ensures |ops| == if mkdir.None? then 2 else 1
    ensures ops[0] == Mkdir(dir)
    ensures mkdir.None? ==> ops[1] == Chmod(dir)
    ensures Chmod(dir) in ops <==> mkdir.None?
  {
    if mkdir.None? then [Mkdir(dir), Chmod(dir)] else [Mkdir(dir)]
  }

  /** auth: a disallowed address gets 401 and touches nothing; otherwise
      the stream's directory is cleared, and the mkdir fallback runs only
      when os.IsNotExist accepts ClearDir's error, which as written it
      never does. */
  method Auth(state: ServerState, form: Form, fs: FsOutcomes) returns (reply: Reply, ops: seq<FsOp>)
    ensures !Allowed(state.allowedIps, FormValue(form, "addr")) ==> reply == UNAUTHORIZED && ops == []
    ensures reply == OK_REPLY || reply == UNAUTHORIZED || reply == CLEAR_DIR_ERROR
    ensures reply.status == AuthStatusAsWritten(Allowed(state.allowedIps, FormValue(form, "addr")),
                                                ClearDirResult(fs.listing, fs.removeFailures), fs.mkdir, fs.chmod)
    ensures Allowed(state.allowedIps, FormValue(form, "addr")) ==>
      var dir := HLS_ROOT + FormValue(form, "name");
      var cleared := ClearDirResult(fs.listing, fs.removeFailures);
      && |ops| > 0 && ops[0] == ReadDir(dir)
      && (forall op :: op in ops ==> op.dir == dir)
      && (Mkdir(dir) in ops <==> cleared.Some? && OsIsNotExist(cleared.value))
      && (Chmod(dir) in ops <==> Mkdir(dir) in ops && fs.mkdir.None?)
    // as written, auth only lists and removes
    ensures forall op :: op in ops ==> op.ReadDir? || op.RemoveEntry?
  {
    var addr := FormValue(form, "addr");
    var name := FormValue(form, "name");
    if !(addr in state.allowedIps && state.allowedIps[addr]) {
      return UNAUTHORIZED, [];
    }
    var dir := HLS_ROOT + name;
    var err;
    err, ops := ClearDir(dir, fs.listing, fs.removeFailures);
    reply := OK_REPLY;
    if err.Some? {
      if !OsIsNotExist(err.value) {
        reply := CLEAR_DIR_ERROR;
      } else {
        ops := ops + CreateOps(dir, fs.mkdir);
        if fs.mkdir.Some? || fs.chmod.Some? {
          reply := CLEAR_DIR_ERROR;
        }
      }
    }
  }

  // ---------------------------------------------------------------- dispatch

  /** mainSwitch: a form that fails to parse, or a URL outside the five
      routes, gets 400 and changes nothing; the others go to their handler.
      `form` is the outcome of r.ParseForm; `rebuild` is the directory whose
      playlist rebuild publish_done scheduled. */
  method MainSwitch(state: ServerState, url: string, form: Option<Form>, fs: FsOutcomes)
    returns (reply: Reply, ops: seq<FsOp>, rebuild: Option<string>)
    modifies state`streams
    ensures form.None? || RouteOf(url).None? ==>
      reply == BAD_REQUEST && ops == [] && rebuild == None && state.streams == old(state.streams)
    ensures ops != [] ==> form.Some? && RouteOf(url) == Some(AuthRoute)
    ensures rebuild.Some? <==> form.Some? && RouteOf(url) == Some(PublishDoneRoute)
    ensures form.Some? && RouteOf(url) == Some(AuthRoute) ==>
      && reply.Reply?
      && reply.status == AuthStatusAsWritten(Allowed(state.allowedIps, FormValue(form.value, "addr")),
                                             ClearDirResult(fs.listing, fs.removeFailures), fs.mkdir, fs.chmod)
      && (forall op :: op in ops ==> op.ReadDir? || op.RemoveEntry?)
      && state.streams == old(state.streams)
    ensures form.Some? && RouteOf(url) == Some(PublishRoute) ==>
      reply == OK_REPLY && state.streams == Published(old(state.streams), FormValue(form.value, "name"))
    ensures form.Some? && RouteOf(url) == Some(PublishDoneRoute) ==>
      var name := FormValue(form.value, "name");
      && rebuild == Some(HLS_ROOT + name)
      && (name in old(state.streams) ==> reply == OK_REPLY && state.streams == Unpublished(old(state.streams), name))
      && (name !in old(state.streams) ==> reply == Aborted && state.streams == old(state.streams))
    ensures form.Some? && RouteOf(url) == Some(NewViewerRoute) ==>
      var name := FormValue(form.value, "name");
      && (name in old(state.streams) ==> reply == OK_REPLY && state.streams == ViewerJoined(old(state.streams), name))
      && (name !in old(state.streams) ==> reply == Aborted && state.streams == old(state.streams))
    ensures form.Some? && RouteOf(url) == Some(ViewerLeftRoute) ==>
      var name := FormValue(form.value, "name");
      && (name in old(state.streams) ==> reply == OK_REPLY && state.streams == ViewerLeft(old(state.streams), name))
      && (name !in old(state.streams) ==> reply == Aborted && state.streams == old(state.streams))
  {
    ops, rebuild := [], None;
    if form.None? {
      return BAD_REQUEST, ops, rebuild;
    }
    match RouteOf(url)
    case Some(AuthRoute) =>
      reply, ops := Auth(state, form.value, fs);
    case Some(NewViewerRoute) =>
      reply := NewViewer(state, form.value);
    case Some(ViewerLeftRoute) =>
      reply := ViewerLeaves(state, form.value);
    case Some(PublishRoute) =>
      reply := Publish(state, form.value);
    case Some(PublishDoneRoute) =>
      var dir;
      reply, dir := PublishDone(state, form.value);
      rebuild := Some(dir);
    case None =>
      reply := BAD_REQUEST;
  }
}

=== FILE: Rebuild.dfy ===
/** RebuildM3U8 (server/servers/nginx.go): after a stream ends, list its
    segment directory, keep the entries that are not directories and are
    named "*.ts", sort them by the number in their name and write an HLS
    media playlist (RFC 8216: EXTM3U and EXT-X-VERSION, section 4.3.1;
    EXTINF, section 4.3.2; EXT-X-TARGETDURATION and EXT-X-MEDIA-SEQUENCE,
    section 4.3.3) listing them. The directory listing and the outcome of the final write are
    inputs; the 30-second wait before the listing is not modelled. */
module Rebuild {
  import opened GoStd

  const SEGMENT_EXT := ".ts"

  /** A listing entry the rebuild keeps. */
  predicate IsSegment(e: DirEntry) {
    !e.isDir && HasSuffix(e.name, SEGMENT_EXT)
  }

  /** The sort key: strconv.Atoi of the name without ".ts", 0 when that is
      not a number. */
  function SegmentIndex(name: string): int {
    Atoi(TrimSuffix(name, SEGMENT_EXT))
  }

  /** The names the collecting loop keeps, in listing order. */
  function SegmentNames(files: seq<DirEntry>): (r: seq<string>)
    ensures |r| <= |files|
    ensures forall x :: x in r ==> HasSuffix(x, SEGMENT_EXT)
    ensures forall x :: x in r <==> exists e :: e in files && IsSegment(e) && e.name == x
  {
    if files == [] then []
    else
      var init := files[..|files| - 1];
      var last := files[|files| - 1];
      assert files == init + [last];
      SegmentNames(init) + (if IsSegment(last) then [last.name] else [])
  }

  predicate Distinct(s: seq<string>) {
    forall i, j :: 0 <= i < j < |s| ==> s[i] != s[j]
  }

  /** A directory never lists one name twice, so the rebuild lists each
      segment once. */
  lemma {:induction false} SegmentNamesDistinct(files: seq<DirEntry>)
    requires forall i, j :: 0 <= i < j < |files| ==> files[i].name != files[j].name
    ensures Distinct(SegmentNames(files))
  {
    if files != [] {
      var init := files[..|files| - 1];
      var last := files[|files| - 1];
      SegmentNamesDistinct(init);
      if IsSegment(last) {
        assert last.name !in SegmentNames(init);
      }
    }
  }

  /** Non-decreasing by `key`. */
  predicate SortedBy(s: seq<string>, key: string -> int) {
    forall i, j :: 0 <= i < j < |s| ==> key(s[i]) <= key(s[j])
  }

  predicate SortedByIndex(s: seq<string>) {
    SortedBy(s, SegmentIndex)
  }

  // ---------------------------------------------------------------- collect

  /** The collecting loop of RebuildM3U8. */
  method CollectSegments(files: seq<DirEntry>) returns (ts: seq<string>)
    ensures ts == SegmentNames(files)
  {
    ts := [];
    for i := 0 to |files|
      invariant ts == SegmentNames(files[..i])
    {
      assert files[..i + 1][..i] == files[..i];
      if !files[i].isDir && HasSuffix(files[i].name, SEGMENT_EXT) {
        ts := ts + [files[i].name];
      }
    }
    assert files[..|files|] == files;
  }

  // ---------------------------------------------------------------- sort

  /** sort.Slice(a, func(i, j int) bool { return key(a[i]) < key(a[j]) }):
      sorts in place, non-decreasing by `key`. sort.Slice is not stable;
      only the order of names with different keys is fixed. */
  method SortSlice(a: array<string>, key: string -> int)
    modifies a
    ensures SortedBy(a[..], key)
    ensures multiset(a[..]) == multiset(old(a[..]))
  {
    if a.Length == 0 {
      return;
    }
    var i := 1;
    while i < a.Length
      invariant 1 <= i <= a.Length
      invariant SortedBy(a[..i], key)
      invariant multiset(a[..]) == multiset(old(a[..]))
    {
      InsertNext(a, i, key);
      i := i + 1;
    }
  }

  /** One pass of the insertion sort: the name at position i sinks into
      the sorted prefix before it. */
  method InsertNext(a: array<string>, i: nat, key: string -> int)
    requires 0 < i < a.Length
    requires SortedBy(a[..i], key)
    modifies a
    ensures SortedBy(a[..i + 1], key)
    ensures multiset(a[..]) == multiset(old(a[..]))
  {
    var j := i;
    while j > 0 && key(a[j]) < key(a[j - 1])
      invariant 0 <= j <= i
      invariant multiset(a[..]) == multiset(old(a[..]))
      invariant forall p, q :: 0 <= p < q <= i && q != j ==> key(a[p]) <= key(a[q])
      invariant 0 < j < i ==> key(a[j - 1]) <= key(a[j + 1])
    {
      Swap(a, j - 1, j);
      j := j - 1;
    }
  }

  /** Exchanges two neighbouring elements. */
  method Swap(a: array<string>, i: nat, j: nat)
    requires i < j < a.Length
    modifies a
    ensures a[..] == old(a[..])[i := old(a[j])][j := old(a[i])]
    ensures multiset(a[..]) == multiset(old(a[..]))
  {
    a[i], a[j] := a[j], a[i];
  }

  /** No two positions of `s` share a key. */
  predicate DistinctKeys(s: seq<string>, key: string -> int) {
    forall i, j :: 0 <= i < j < |s| ==> key(s[i]) != key(s[j])
  }

  /** Dropping the first name keeps an order sorted and its keys distinct. */
  lemma TailKeeps(s: seq<string>, key: string -> int)
    requires |s| > 0 && SortedBy(s, key) && DistinctKeys(s, key)
    ensures SortedBy(s[1..], key) && DistinctKeys(s[1..], key)
  {
    assert forall i :: 0 <= i < |s| - 1 ==> s[1..][i] == s[i + 1];
  }

  /** Two sorted orders of the same names, all of different keys, start with
      the same name. */
  lemma SameHead(s: seq<string>, t: seq<string>, key: string -> int)
    requires |s| > 0 && SortedBy(s, key) && SortedBy(t, key)
    requires multiset(s) == multiset(t)
    requires DistinctKeys(s, key)
    ensures |t| > 0 && s[0] == t[0]
  {
    assert s[0] in multiset(t);
    assert |t| > 0;
    assert t[0] in multiset(s);
    var i :| 0 <= i < |t| && t[i] == s[0];
    var j :| 0 <= j < |s| && s[j] == t[0];
    assert key(t[0]) <= key(t[i]) == key(s[0]);
    assert key(s[0]) <= key(s[j]) == key(t[0]);
    assert j == 0;
  }

  /** The multiset of the rest of a non-empty order. */
  lemma MultisetTail(s: seq<string>)
    requires |s| > 0
    ensures multiset(s[1..]) == multiset(s) - multiset{s[0]}
  {
    assert s == [s[0]] + s[1..];
    assert multiset(s) == multiset{s[0]} + multiset(s[1..]);
  }

  /** Everything the induction below needs about the two tails. */
  lemma TailsAgree(s: seq<string>, t: seq<string>, key: string -> int)
    requires |s| > 0 && SortedBy(s, key) && SortedBy(t, key)
    requires multiset(s) == multiset(t)
    requires DistinctKeys(s, key)
    ensures |t| > 0 && s[0] == t[0]
    ensures SortedBy(s[1..], key) && SortedBy(t[1..], key) && DistinctKeys(s[1..], key)
    ensures multiset(s[1..]) == multiset(t[1..])
  {
    SameHead(s, t, key);
    TailKeeps(s, key);
    assert forall i :: 0 <= i < |t| - 1 ==> t[1..][i] == t[i + 1];
    MultisetTail(s);
    MultisetTail(t);
  }

  /** Two orders sorted by `key`, of the same names, all of different keys,
      are the same order. */
  lemma {:induction false} SortedPermutationUnique(s: seq<string>, t: seq<string>, key: string -> int)
    requires SortedBy(s, key) && SortedBy(t, key)
    requires multiset(s) == multiset(t)
    requires DistinctKeys(s, key)
    ensures s == t
    decreases |s|
  {
    if s == [] {
      assert |t| == |multiset(t)| == 0;
    } else {
      TailsAgree(s, t, key);
      SortedPermutationUnique(s[1..], t[1..], key);
      assert s == [s[0]] + s[1..] && t == [t[0]] + t[1..];
    }
  }

  // ---------------------------------------------------------------- render

  const EXTINF := "#EXTINF:10,"

  /** The four header lines: version 3, media sequence reset to 0, a target
      duration of 10 seconds. */
  const HEADER: seq<string> := ["#EXTM3U", "#EXT-X-VERSION:3", "#EXT-X-MEDIA-SEQUENCE:0", "#EXT-X-TARGETDURATION:10"]

  /** The playlist's lines: the header, then an EXTINF line and the name
      for each segment. */
  function PlaylistLines(ts: seq<string>): (lines: seq<string>)
    ensures |lines| == |HEADER| + 2 * |ts|
    ensures lines[..|HEADER|] == HEADER
    ensures forall i :: 0 <= i < |ts| ==> lines[|HEADER| + 2 * i] == EXTINF && lines[|HEADER| + 2 * i + 1] == ts[i]
  {
    if ts == [] then HEADER
    else
      var init := ts[..|ts| - 1];
      assert forall i :: 0 <= i < |init| ==> init[i] == ts[i];
      PlaylistLines(init) + [EXTINF, ts[|ts| - 1]]
  }

  /** The text of a list of lines, each followed by a newline. */
  function Text(lines: seq<string>): string {
    if lines == [] then "" else lines[0] + "\n" + Text(lines[1..])
  }

  lemma {:induction false} TextAppend(lines: seq<string>, line: string)
    ensures Text(lines + [line]) == Text(lines) + line + "\n"
    decreases |lines|
  {
    if lines == [] {
      assert [line][1..] == [];
    } else {
      assert (lines + [line])[1..] == lines[1..] + [line];
      TextAppend(lines[1..], line);
    }
  }

  /** The lines of a text: each line ends at a newline; a last fragment
      without one is a line too. */
  function SplitLines(s: string): seq<string>
    decreases |s|
  {
    if s == [] then []
    else
      var n := LineLength(s);
      if n == |s| then [s] else [s[..n]] + SplitLines(s[n + 1..])
  }

  /** The length of the first line of `s`. */
  function LineLength(s: string): (n: nat)
    ensures n <= |s|
    ensures forall k :: 0 <= k < n ==> s[k] != '\n'
    ensures n < |s| ==> s[n] == '\n'
  {
    if s == [] || s[0] == '\n' then 0 else 1 + LineLength(s[1..])
  }

  /** Reading the lines back from a text gives the lines that were written,
      as long as no line holds a newline of its own. */
  lemma {:induction false} SplitText(lines: seq<string>)
    requires forall l :: l in lines ==> '\n' !in l
    ensures SplitLines(Text(lines)) == lines
    decreases |lines|
  {
    if lines != [] {
      var s := Text(lines);
      var l := lines[0];
      assert s == l + ("\n" + Text(lines[1..]));
      LineLengthOf(l, "\n" + Text(lines[1..]));
      assert s[..|l|] == l;
      assert s[|l| + 1..] == Text(lines[1..]);
      SplitText(lines[1..]);
    }
  }

  lemma {:induction false} LineLengthOf(l: string, rest: string)
    requires '\n' !in l
    requires |rest| > 0 && rest[0] == '\n'
    ensures LineLength(l + rest) == |l|
    decreases |l|
  {
    if l != [] {
      assert (l + rest)[1..] == l[1..] + rest;
      LineLengthOf(l[1..], rest);
    } else {
      assert l + rest == rest;
    }
  }

  /** The four header writes of the builder spell the header lines. */
  lemma HeaderText()
    ensures Text(HEADER) == "#EXTM3U\n" + "#EXT-X-VERSION:3\n" + "#EXT-X-MEDIA-SEQUENCE:0\n" + "#EXT-X-TARGETDURATION:10\n"
  {
    var h := HEADER;
    assert Text(h[3..]) == "#EXT-X-TARGETDURATION:10\n";
    assert Text(h[2..]) == "#EXT-X-MEDIA-SEQUENCE:0\n" + Text(h[3..]);
    assert Text(h[1..]) == "#EXT-X-VERSION:3\n" + Text(h[2..]);
  }

  /** The builder loop of RebuildM3U8. */
  method RenderPlaylist(ts: seq<string>) returns (content: string)
    ensures content == Text(PlaylistLines(ts))
  {
    var sb := "#EXTM3U\n";
    sb := sb + "#EXT-X-VERSION:3\n";
    sb := sb + "#EXT-X-MEDIA-SEQUENCE:0\n";
    sb := sb + "#EXT-X-TARGETDURATION:10\n";
    HeaderText();
    for i := 0 to |ts|
      invariant sb == Text(PlaylistLines(ts[..i]))
    {
      AppendSegment(ts[..i], ts[i]);
      assert ts[..i + 1] == ts[..i] + [ts[i]];
      sb := sb + "#EXTINF:10,\n";
      sb := sb + ts[i] + "\n";
    }
    assert ts[..|ts|] == ts;
    content := sb;
  }

  /** One more segment adds its two lines to the end of the text. */
  lemma AppendSegment(ts: seq<string>, name: string)
    ensures Text(PlaylistLines(ts + [name])) == Text(PlaylistLines(ts)) + "#EXTINF:10,\n" + name + "\n"
  {
    assert (ts + [name])[..|ts|] == ts;
    assert PlaylistLines(ts + [name]) == PlaylistLines(ts) + [EXTINF] + [name];
    TextAppend(PlaylistLines(ts), EXTINF);
    TextAppend(PlaylistLines(ts) + [EXTINF], name);
  }

  // ---------------------------------------------------------------- the job

  datatype RebuildOutcome =
    | ReadDirFailed(err: GoError)
    | WriteAttempted(path: string, content: string, writeErr: Option<GoError>)

  /** RebuildM3U8(dir) once its wait is over. `listing` is what os.ReadDir
      returns; `writeErr` is the outcome of os.WriteFile. The ghost `order`
      is the order the sort produced. */
  method RebuildM3U8(dir: string, listing: Result<seq<DirEntry>, GoError>, writeErr: Option<GoError>)
    returns (outcome: RebuildOutcome, ghost order: seq<string>)
    ensures listing.Err? ==> outcome == ReadDirFailed(listing.error)
    ensures listing.Ok? ==>
      && SortedByIndex(order)
      && multiset(order) == multiset(SegmentNames(listing.value))
      && outcome == WriteAttempted(dir + "/index.m3u8", Text(PlaylistLines(order)), writeErr)
  {
    order := [];
    if listing.Err? {
      return ReadDirFailed(listing.error), order;
    }
    var tsFiles := CollectSegments(listing.value);
    var a := new string[|tsFiles|](i requires 0 <= i < |tsFiles| => tsFiles[i]);
    assert a[..] == tsFiles;
    SortSlice(a, SegmentIndex);
    order := a[..];
    var content := RenderPlaylist(a[..]);
    outcome := WriteAttempted(dir + "/index.m3u8", content, writeErr);
  }

  /** The example of numeric order: "2.ts", "10.ts", "1.ts" are listed as
      1, 2, 10 (not 1, 10, 2 as a string sort would give). */
  lemma NumericOrderExample(order: seq<string>)
    requires SortedByIndex(order)
    requires multiset(order) == multiset(["2.ts", "10.ts", "1.ts"])
    ensures order == ["1.ts", "2.ts", "10.ts"]
  {
    var expected := ["1.ts", "2.ts", "10.ts"];
    ExpectedOrder();
    assert multiset(expected) == multiset(["2.ts", "10.ts", "1.ts"]);
    SortedPermutationUnique(expected, order, SegmentIndex);
  }

  lemma ExpectedOrder()
    ensures SortedBy(["1.ts", "2.ts", "10.ts"], SegmentIndex)
    ensures DistinctKeys(["1.ts", "2.ts", "10.ts"], SegmentIndex)
  {
    IndexOfOne();
    IndexOfTwo();
    IndexOfTen();
    IncreasingTriple("1.ts", "2.ts", "10.ts", SegmentIndex);
  }

  lemma IncreasingTriple(a: string, b: string, c: string, key: string -> int)
    requires key(a) < key(b) < key(c)
    ensures SortedBy([a, b, c], key) && DistinctKeys([a, b, c], key)
  {
  }

  lemma IndexOfOne()
    ensures SegmentIndex("1.ts") == 1
  {
    IndexOfNumber(1);
    assert Itoa(1) == "1";
  }

  lemma IndexOfTwo()
    ensures SegmentIndex("2.ts") == 2
  {
    IndexOfNumber(2);
    assert Itoa(2) == "2";
  }

  lemma IndexOfTen()
    ensures SegmentIndex("10.ts") == 10
  {
    assert TrimSuffix("10.ts", SEGMENT_EXT) == "10";
    assert DigitsValue("1") == 1;
    assert DigitsValue("10") == 10;
  }

  /** A segment written as "<n>.ts" sorts under n. */
  lemma IndexOfNumber(n: nat)
    requires n <= MAX_INT64
    ensures SegmentIndex(Itoa(n) + SEGMENT_EXT) == n
  {
    assert TrimSuffix(Itoa(n) + SEGMENT_EXT, SEGMENT_EXT) == Itoa(n);
  }
}

=== FILE: State.dfy ===
/** The server's shared state (server/servers/state.go): the registries of
    per-address rate limiters, chat rooms, allowed ingestion addresses and
    streams; the seeding done at start-up; the stream status lookup; and
    the steps of one chat connection's session (join, read error, one
    received message with its fan-out to the room). Each step is one atomic
    event on the state; the locks are the subject of module ChatLocks. */
module State {
  import opened GoStd

  /** A stream record. `viewers` is a uint32, as in the source. */
  datatype Stream = Stream(name: string, isLive: bool, title: string, viewers: uint32)

  /** An upgraded websocket connection, by identity. */
  type Conn = nat

  /** A chat room: its connections keyed by the client's remote address. */
  datatype Room = Room(conns: map<string, Conn>)

  /** A token-bucket limiter: one token every `intervalMs` milliseconds, at
      most `burst` banked, and the answers its Allow() has given so far. The
      bucket arithmetic itself is not modelled; each answer is an input. */
  datatype Limiter = Limiter(intervalMs: nat, burst: nat, answers: seq<bool>)

  /** rate.NewLimiter(rate.Every(2*time.Second), 5), one per chat connection. */
  const CHAT_LIMITER := Limiter(2000, 5, [])

  /** A chat message; an absent "timestamp" decodes to "". */
  datatype Message = Message(code: int, text: string, timestamp: string)

  /** The locals of one HandleChat call once it is connected. */
  datatype ChatSession = ChatSession(room: string, remoteAddr: string, conn: Conn, limiter: Limiter)

  datatype JoinOutcome = Rejected(reply: Reply) | UpgradeFailed | Joined(session: ChatSession)

  datatype MessageOutcome =
    | RateLimited
    | Malformed
    | Broadcast(sent: Message, written: seq<string>)

  /** The answer of IsLive: the status and, on 200, the stream it encodes. */
  datatype LiveReply = LiveReply(status: int, snapshot: Option<Stream>)

  const ALLOWED_INGEST := "172.18.0.1"
  const SEED_ROOM := "jolsho"
  const OFFLINE_TITLE := "Will be back tomorrow."

  /** The message as broadcast: a missing timestamp is filled in with the
      server's clock, a client-supplied one is kept. */
  function Stamped(m: Message, clock: string): (r: Message)
    ensures r.code == m.code && r.text == m.text
    ensures m.timestamp != "" ==> r.timestamp == m.timestamp
    ensures m.timestamp == "" ==> r.timestamp == clock
  {
    if m.timestamp == "" then m.(timestamp := clock) else m
  }

  /** The server never re-stamps a message that already carries a time. */
  lemma StampedOnce(m: Message, clock: string, later: string)
    requires clock != ""
    ensures Stamped(Stamped(m, clock), later) == Stamped(m, clock)
  {
  }

  /** Room membership after a fan-out pass in which the writes to the
      addresses in `failed` went wrong. */
  function Survivors(conns: map<string, Conn>, failed: set<string>): (r: map<string, Conn>)
    ensures r.Keys == conns.Keys - failed
    ensures forall a :: a in r ==> r[a] == conns[a]
  {
    conns - failed
  }

  class ServerState {
    var visitors: map<string, Limiter>
    var connected: map<string, Room>
    var allowedIps: map<string, bool>
    var streams: map<string, Stream>

    /** NewServerState: one allowed ingestion address, one empty room and
        one offline stream, both named "jolsho". */
    constructor ()
      ensures allowedIps == map[ALLOWED_INGEST := true]
      ensures visitors == map[]
      ensures connected == map[SEED_ROOM := Room(map[])]
      ensures streams == map[SEED_ROOM := Stream(SEED_ROOM, false, OFFLINE_TITLE, 0)]
    {
      allowedIps := map[];
      visitors := map[];
      connected := map[];
      streams := map[];
      new;
      allowedIps := allowedIps[ALLOWED_INGEST := true];
      connected := connected[SEED_ROOM := Room(map[])];
      streams := streams[SEED_ROOM := Stream(SEED_ROOM, false, OFFLINE_TITLE, 0)];
    }

    /** IsLive: 200 with the stream of that name, or 204 when there is none.
        (Marshalling a Stream cannot fail.) */
    function IsLive(room: string): (r: LiveReply)
      reads this
      ensures r.status == StatusOK || r.status == StatusNoContent
      ensures r.status == StatusOK <==> room in streams
      ensures room in streams ==> r.snapshot == Some(streams[room])
      ensures room !in streams ==> r.snapshot == None
    {
      if room in streams then LiveReply(StatusOK, Some(streams[room]))
      else LiveReply(StatusNoContent, None)
    }

    /** The start of HandleChat: look the room up, upgrade, register the
        connection under its remote address and create its limiter.
        `upgraded` is the outcome of the websocket upgrade. */
    method JoinChat(roomName: string, remoteAddr: string, upgraded: Option<Conn>) returns (outcome: JoinOutcome)
      modifies this`connected
      ensures roomName !in old(connected) ==>
        outcome == Rejected(HttpError("Room doesnt exist", StatusBadRequest)) && connected == old(connected)
      ensures roomName in old(connected) && upgraded.None? ==>
        outcome == UpgradeFailed && connected == old(connected)
      ensures roomName in old(connected) && upgraded.Some? ==>
        && outcome == Joined(ChatSession(roomName, remoteAddr, upgraded.value, CHAT_LIMITER))
        && connected == old(connected)[roomName := Room(old(connected)[roomName].conns[remoteAddr := upgraded.value])]
    {
      if roomName !in connected {
        return Rejected(HttpError("Room doesnt exist", StatusBadRequest));
      }
      var room := connected[roomName];
      if upgraded.None? {
        return UpgradeFailed;
      }
      var conn := upgraded.value;
      connected := connected[roomName := Room(room.conns[remoteAddr := conn])];
      outcome := Joined(ChatSession(roomName, remoteAddr, conn, CHAT_LIMITER));
    }

    /** A failed read ends the session and deletes the session's remote
        address from its room, whichever connection is registered there. */
    method ChatReadError(session: ChatSession)
      requires session.room in connected
      modifies this`connected
      ensures connected == old(connected)[session.room := Room(old(connected)[session.room].conns - {session.remoteAddr})]
    {
      var room := connected[session.room];
      connected := connected[session.room := Room(room.conns - {session.remoteAddr})];
    }

    /** One message read by the session: consult the limiter (`allow` is its
        answer), decode (`parsed` is the outcome of json.Unmarshal), stamp,
        and write to every member of the room, the sender included; a member
        whose write fails (its address is in `failing`) is deleted. */
    method ChatMessage(session: ChatSession, allow: bool, parsed: Option<Message>, clock: string, failing: set<string>)
      returns (next: ChatSession, outcome: MessageOutcome)
      requires session.room in connected
      modifies this`connected
      ensures next == session.(limiter := session.limiter.(answers := session.limiter.answers + [allow]))
      ensures !allow ==> outcome == RateLimited && connected == old(connected)
      ensures allow && parsed.None? ==> outcome == Malformed && connected == old(connected)
      ensures allow && parsed.Some? ==>
        var before := old(connected)[session.room].conns;
        && outcome.Broadcast?
        && outcome.sent == Stamped(parsed.value, clock)
        && (forall a :: a in outcome.written <==> a in before)
        && (forall i, j :: 0 <= i < j < |outcome.written| ==> outcome.written[i] != outcome.written[j])
        && connected == old(connected)[session.room := Room(Survivors(before, failing))]
    {
      next := session.(limiter := session.limiter.(answers := session.limiter.answers + [allow]));
      if !allow {
        return next, RateLimited;
      }
      if parsed.None? {
        return next, Malformed;
      }
      var msg := parsed.value;
      if msg.timestamp == "" {
        msg := msg.(timestamp := clock);
      }
      var roomName := session.room;
      ghost var before := connected[roomName].conns;
      var pending := connected[roomName].conns.Keys;
      var written: seq<string> := [];
      assert before - (failing * (before.Keys - pending)) == before;
      while pending != {}
        invariant roomName in connected
        invariant pending <= before.Keys
        invariant forall a :: a in written <==> a in before && a !in pending
        invariant forall i, j :: 0 <= i < j < |written| ==> written[i] != written[j]
        invariant connected == old(connected)[roomName := connected[roomName]]
        invariant connected[roomName].conns == before - (failing * (before.Keys - pending))
        decreases pending
      {
        var a :| a in pending;
        written := written + [a];
        if a in failing {
          connected := connected[roomName := Room(connected[roomName].conns - {a})];
          assert failing * (before.Keys - (pending - {a})) == failing * (before.Keys - pending) + {a};
        } else {
          assert failing * (before.Keys - (pending - {a})) == failing * (before.Keys - pending);
        }
        pending := pending - {a};
      }
      assert before - (failing * (before.Keys - pending)) == Survivors(before, failing);
      outcome := Broadcast(msg, written);
    }
  }
}

=== FILE: Video.dfy ===
/** servePlaylist and serveSegment (server/video.go), two handlers that no
    route of the server reaches: the file sits beside main.go in a package
    that main does not import. The playlist is served with every segment
    line replaced by an alias "segment-<k>.ts", and the alias is recorded
    in the package-level map `tsMap` so that a later segment request can be
    resolved to the real file. The playlist file is an input, as the lines
    bufio.Scanner yields from it. */
module Video {
  import opened GoStd
  import opened Rebuild

  const LIVEDIR := "/var/www/hls/"
  const LIVEPLAYLIST := LIVEDIR + "mainstream.m3u8"
  const LIVE_ROUTE := "/live/"

  /** http.Error's Content-Type. */
  const ERROR_TYPE := "text/plain; charset=utf-8"

  /** The alias of the k-th segment line, counting from 0. */
  function SegmentAlias(k: nat): (alias: string)
    ensures |alias| == |Itoa(k)| + 11
    ensures HasPrefix(alias, "segment-") && HasSuffix(alias, ".ts")
    ensures alias[8..|alias| - 3] == Itoa(k)
  {
    var alias := "segment-" + Itoa(k) + ".ts";
    assert alias[8..|alias| - 3] == Itoa(k);
    alias
  }

  /** Distinct positions get distinct aliases. */
  lemma SegmentAliasInjective(j: nat, k: nat)
    ensures SegmentAlias(j) == SegmentAlias(k) ==> j == k
  {
    if SegmentAlias(j) == SegmentAlias(k) {
      assert Itoa(j) == Itoa(k);
    }
  }

  predicate IsTsLine(line: string) {
    HasSuffix(line, ".ts")
  }

  /** How many segment lines `lines` has. */
  function TsCount(lines: seq<string>): (n: nat)
    ensures n <= |lines|
  {
    if lines == [] then 0
    else TsCount(lines[..|lines| - 1]) + (if IsTsLine(lines[|lines| - 1]) then 1 else 0)
  }

  /** The lines as served. */
  function Rewritten(lines: seq<string>): (out: seq<string>)
    ensures |out| == |lines|
  {
    if lines == [] then []
    else
      var init := lines[..|lines| - 1];
      var line := lines[|lines| - 1];
      Rewritten(init) + [if IsTsLine(line) then SegmentAlias(TsCount(init)) else line]
  }

  /** The aliases one pass over `lines` records. */
  function AliasMap(lines: seq<string>): map<string, string>
  {
    if lines == [] then map[]
    else
      var init := lines[..|lines| - 1];
      var line := lines[|lines| - 1];
      if IsTsLine(line) then AliasMap(init)[SegmentAlias(TsCount(init)) := LIVEDIR + line]
      else AliasMap(init)
  }

  /** Line i as served: a segment line becomes the alias of its rank among
      the segment lines, any other line is copied. */
  lemma {:induction false} RewrittenAt(lines: seq<string>, i: nat)
    requires i < |lines|
    ensures Rewritten(lines)[i] == if IsTsLine(lines[i]) then SegmentAlias(TsCount(lines[..i])) else lines[i]
    decreases |lines|
  {
    var init := lines[..|lines| - 1];
    if i < |lines| - 1 {
      RewrittenAt(init, i);
      assert init[..i] == lines[..i];
      assert init[i] == lines[i];
    } else {
      assert lines[..i] == init;
    }
  }

  /** A prefix has no more segment lines than the whole. */
  lemma {:induction false} TsCountMonotone(lines: seq<string>, i: nat)
    requires i <= |lines|
    ensures TsCount(lines[..i]) <= TsCount(lines)
    ensures i < |lines| && IsTsLine(lines[i]) ==> TsCount(lines[..i]) < TsCount(lines)
    decreases |lines|
  {
    if i < |lines| {
      var init := lines[..|lines| - 1];
      assert init[..i] == lines[..i] || i == |lines| - 1;
      if i < |lines| - 1 {
        TsCountMonotone(init, i);
        assert init[..i] == lines[..i];
      } else {
        assert lines[..i] == init;
      }
    } else {
      assert lines[..i] == lines;
    }
  }

  /** The last line adds its alias to the keys exactly when it is a
      segment line. */
  lemma AliasMapKeysStep(lines: seq<string>)
    requires lines != []
    ensures var init := lines[..|lines| - 1];
      && TsCount(lines) == TsCount(init) + (if IsTsLine(lines[|lines| - 1]) then 1 else 0)
      && AliasMap(lines).Keys
         == AliasMap(init).Keys + (if IsTsLine(lines[|lines| - 1]) then {SegmentAlias(TsCount(init))} else {})
  {
  }

  /** The aliases recorded are exactly those of ranks 0 .. TsCount - 1. */
  lemma {:induction false} AliasMapKeys(lines: seq<string>)
    ensures forall a :: a in AliasMap(lines) <==> exists k :: 0 <= k < TsCount(lines) && a == SegmentAlias(k)
    decreases |lines|
  {
    if lines != [] {
      var init := lines[..|lines| - 1];
      AliasMapKeys(init);
      AliasMapKeysStep(lines);
      var n := TsCount(init);
      forall a
        ensures a in AliasMap(lines) <==> exists k :: 0 <= k < TsCount(lines) && a == SegmentAlias(k)
      {
        if a in AliasMap(lines) && a !in AliasMap(init) {
          assert 0 <= n < TsCount(lines) && a == SegmentAlias(n);
        }
        if exists k :: 0 <= k < TsCount(lines) && a == SegmentAlias(k) {
          var k :| 0 <= k < TsCount(lines) && a == SegmentAlias(k);
          if k == n {
            assert a in AliasMap(lines);
          }
        }
      }
    }
  }

  /** Each segment line's alias resolves to that line under LIVEDIR. */
  lemma {:induction false} AliasMapLookup(lines: seq<string>, i: nat)
    requires i < |lines| && IsTsLine(lines[i])
    ensures SegmentAlias(TsCount(lines[..i])) in AliasMap(lines)
    ensures AliasMap(lines)[SegmentAlias(TsCount(lines[..i]))] == LIVEDIR + lines[i]
    decreases |lines|
  {
    var init := lines[..|lines| - 1];
    var last := lines[|lines| - 1];
    if i < |lines| - 1 {
      assert init[..i] == lines[..i] && init[i] == lines[i];
      AliasMapLookup(init, i);
      var alias := SegmentAlias(TsCount(init[..i]));
      if IsTsLine(last) {
        TsCountMonotone(init, i);
        SegmentAliasInjective(TsCount(init), TsCount(init[..i]));
        assert alias != SegmentAlias(TsCount(init));
        assert AliasMap(lines) == AliasMap(init)[SegmentAlias(TsCount(init)) := LIVEDIR + last];
      } else {
        assert AliasMap(lines) == AliasMap(init);
      }
    } else {
      assert lines[..i] == init;
      assert AliasMap(lines) == AliasMap(init)[SegmentAlias(TsCount(init)) := LIVEDIR + last];
    }
  }

  /** One more line of the playlist: how the rank, the served lines and the
      recorded aliases grow. */
  lemma PassStep(lines: seq<string>, i: nat)
    requires i < |lines|
    ensures var line := lines[i]; var prefix := lines[..i];
      && TsCount(lines[..i + 1]) == TsCount(prefix) + (if IsTsLine(line) then 1 else 0)
      && Rewritten(lines[..i + 1])
         == Rewritten(prefix) + [if IsTsLine(line) then SegmentAlias(TsCount(prefix)) else line]
      && AliasMap(lines[..i + 1])
         == if IsTsLine(line) then AliasMap(prefix)[SegmentAlias(TsCount(prefix)) := LIVEDIR + line]
            else AliasMap(prefix)
  {
    assert lines[..i + 1][..i] == lines[..i];
  }

  /** Recording one more alias over a union records it in the newer map. */
  lemma UnionUpdate(m: map<string, string>, a: map<string, string>, k: string, v: string)
    ensures (m + a)[k := v] == m + a[k := v]
  {
  }

  /** The answer of serveSegment: the real file to serve, or 404. */
  datatype SegmentReply = ServeFile(path: string) | NotFound

  /** The mutable package state of the route: the alias map. */
  class LiveSegments {
    var tsMap: map<string, string>

    constructor ()
      ensures tsMap == map[]
    {
      tsMap := map[];
    }

    /** servePlaylist: 404 when the playlist cannot be opened; otherwise the
        rewritten playlist, one line per input line, with the aliases of
        this pass recorded over any earlier ones. */
    method ServePlaylist(playlist: Option<seq<string>>) returns (reply: Reply, contentType: string)
      modifies this`tsMap
      ensures playlist.None? ==>
        reply == HttpError("Playlist not found", StatusNotFound) && contentType == ERROR_TYPE
        && tsMap == old(tsMap)
      ensures playlist.Some? ==>
        reply == Reply(StatusOK, Text(Rewritten(playlist.value))) && contentType == PLAYLIST_TYPE
        && tsMap == old(tsMap) + AliasMap(playlist.value)
    {
      if playlist.None? {
        return HttpError("Playlist not found", StatusNotFound), ERROR_TYPE;
      }
      var lines := playlist.value;
      contentType := PLAYLIST_TYPE;
      var body := "";
      var counter := 0;
      for i := 0 to |lines|
        invariant counter == TsCount(lines[..i])
        invariant body == Text(Rewritten(lines[..i]))
        invariant tsMap == old(tsMap) + AliasMap(lines[..i])
      {
        PassStep(lines, i);
        var line := lines[i];
        if HasSuffix(line, ".ts") {
          var alias := SegmentAlias(counter);
          UnionUpdate(old(tsMap), AliasMap(lines[..i]), alias, LIVEDIR + line);
          tsMap := tsMap[alias := LIVEDIR + line];
          line := alias;
          counter := counter + 1;
        }
        TextAppend(Rewritten(lines[..i]), line);
        body := body + line + "\n";
      }
      assert lines[..|lines|] == lines;
      reply := Reply(StatusOK, body);
    }

    /** serveSegment: strip one leading "/live/" and look the alias up. */
    function ServeSegment(urlPath: string): (r: SegmentReply)
      reads this
      ensures r == NotFound <==> TrimPrefix(urlPath, LIVE_ROUTE) !in tsMap
      ensures r.ServeFile? ==> r.path == tsMap[TrimPrefix(urlPath, LIVE_ROUTE)]
    {
      var alias := TrimPrefix(urlPath, LIVE_ROUTE);
      if alias in tsMap then ServeFile(tsMap[alias]) else NotFound
    }
  }

  /** After the playlist has been served, the request for the alias of any
      of its segment lines is answered with that segment's real file. */
  lemma PlaylistThenSegment(oldMap: map<string, string>, lines: seq<string>, i: nat)
    requires i < |lines| && IsTsLine(lines[i])
    ensures Rewritten(lines)[i] == SegmentAlias(TsCount(lines[..i]))
    ensures var m := oldMap + AliasMap(lines);
      Rewritten(lines)[i] in m && m[Rewritten(lines)[i]] == LIVEDIR + lines[i]
  {
    RewrittenAt(lines, i);
    AliasMapLookup(lines, i);
  }
}

=== FILE: Web.dfy ===
/** The request-side helpers of the public web front (server/servers/web.go):
    the per-address rate-limit gate in front of every HTTPS route, the
    header and path handling of the /hls/ file route, and the target of the
    plain-HTTP redirect to HTTPS. */
module Web {
  import opened GoStd
  import opened State

  // ---------------------------------------------------------------- rate limiting

  /** rate.NewLimiter(2, 12): two tokens a second, at most twelve banked. */
  const GENERAL_LIMITER := Limiter(500, 12, [])

  const TOO_MANY_REQUESTS := Reply(StatusTooManyRequests, "Too Many Requests")

  /** What the gate does with a request: answer it itself, or call the
      wrapped handler once. */
  datatype Gate = Refused(reply: Reply) | PassedToNext

  /** The visitor registry after one request from `addr` whose Allow()
      answered `allow`: the address's limiter is created on first sight and
      then only ever consulted. */
  function Consulted(visitors: map<string, Limiter>, addr: string, allow: bool): (r: map<string, Limiter>)
    ensures r.Keys == visitors.Keys + {addr}
    ensures addr in visitors ==> r[addr] == visitors[addr].(answers := visitors[addr].answers + [allow])
    ensures addr !in visitors ==> r[addr] == GENERAL_LIMITER.(answers := [allow])
    ensures forall a :: a in visitors && a != addr ==> r[a] == visitors[a]
  {
    var limiter := if addr in visitors then visitors[addr] else GENERAL_LIMITER;
    visitors[addr := limiter.(answers := limiter.answers + [allow])]
  }

  /** A request as the gate sees it: the remote address and Allow()'s answer. */
  datatype Visit = Visit(addr: string, allow: bool)

  function ConsultedAll(visitors: map<string, Limiter>, visits: seq<Visit>): map<string, Limiter>
    decreases |visits|
  {
    if visits == [] then visitors
    else ConsultedAll(Consulted(visitors, visits[0].addr, visits[0].allow), visits[1..])
  }

  /** However many requests pass, no limiter is removed or replaced: every
      address keeps its entry, with its rate and burst, and the answers it
      has given only grow. */
  lemma {:induction false} RegistryOnlyGrows(visitors: map<string, Limiter>, visits: seq<Visit>)
    ensures visitors.Keys <= ConsultedAll(visitors, visits).Keys
    ensures forall a :: a in visitors ==>
      var l := ConsultedAll(visitors, visits)[a];
      && l.intervalMs == visitors[a].intervalMs && l.burst == visitors[a].burst
      && visitors[a].answers <= l.answers
    ensures forall v :: v in visits ==> v.addr in ConsultedAll(visitors, visits)
    decreases |visits|
  {
    if visits != [] {
      var next := Consulted(visitors, visits[0].addr, visits[0].allow);
      RegistryOnlyGrows(next, visits[1..]);
      forall v | v in visits
        ensures v.addr in ConsultedAll(visitors, visits)
      {
        if v != visits[0] {
          assert v in visits[1..];
        }
      }
    }
  }

  /** rateLimitedHandler: look up or create the address's limiter, then
      refuse with 429 or pass the request on. */
  method RateLimited(s: ServerState, remoteAddr: string, allow: bool) returns (gate: Gate)
    modifies s`visitors
    ensures s.visitors == Consulted(old(s.visitors), remoteAddr, allow)
    ensures !allow ==> gate == Refused(TOO_MANY_REQUESTS)
    ensures allow ==> gate == PassedToNext
  {
    var limiter: Limiter;
    if remoteAddr in s.visitors {
      limiter := s.visitors[remoteAddr];
    } else {
      limiter := GENERAL_LIMITER;
      s.visitors := s.visitors[remoteAddr := limiter];
    }
    // Allow() updates the shared limiter in place
    limiter := limiter.(answers := limiter.answers + [allow]);
    s.visitors := s.visitors[remoteAddr := limiter];
    if !allow {
      return Refused(TOO_MANY_REQUESTS);
    }
    gate := PassedToNext;
  }

  // ---------------------------------------------------------------- HLS files

  const HLS_PREFIX := "/hls"
  const SEGMENT_TYPE := "video/mp2t"

  /** The path handed to the file server: one leading "/hls" removed. */
  function HlsPath(urlPath: string): (p: string)
    ensures HasPrefix(urlPath, HLS_PREFIX) ==> HLS_PREFIX + p == urlPath
    ensures !HasPrefix(urlPath, HLS_PREFIX) ==> p == urlPath
  {
    TrimPrefix(urlPath, HLS_PREFIX)
  }

  /** The response headers hlsHandler sets before serving the file. */
  function HlsHeaders(urlPath: string): (h: map<string, string>)
    ensures "Cache-Control" in h && h["Cache-Control"] == "no-cache"
    ensures "Access-Control-Allow-Origin" in h && h["Access-Control-Allow-Origin"] == "*"
    ensures "Content-Type" in h <==> Ext(HlsPath(urlPath)) == ".m3u8" || Ext(HlsPath(urlPath)) == ".ts"
    ensures "Content-Type" in h ==>
      h["Content-Type"] == (if Ext(HlsPath(urlPath)) == ".m3u8" then PLAYLIST_TYPE else SEGMENT_TYPE)
    ensures h.Keys <= {"Cache-Control", "Access-Control-Allow-Origin", "Content-Type"}
  {
    var h := map["Cache-Control" := "no-cache", "Access-Control-Allow-Origin" := "*"];
    var ext := Ext(HlsPath(urlPath));
    if ext == ".m3u8" then h["Content-Type" := PLAYLIST_TYPE]
    else if ext == ".ts" then h["Content-Type" := SEGMENT_TYPE]
    else h
  }

  /** The two extensions hlsHandler looks for are exactly the two suffixes. */
  lemma ExtMatchesSuffix(p: string)
    ensures Ext(p) == ".ts" <==> HasSuffix(p, ".ts")
    ensures Ext(p) == ".m3u8" <==> HasSuffix(p, ".m3u8")
  {
    if HasSuffix(p, ".ts") {
      ExtOfSuffix(p, ".ts");
    }
    if HasSuffix(p, ".m3u8") {
      ExtOfSuffix(p, ".m3u8");
    }
  }

  /** hlsHandler sets the segment type for a path ending in ".ts" and the
      playlist type for one ending in ".m3u8", and sets no Content-Type for
      any other path (the file server then chooses one itself). */
  lemma ContentTypeBySuffix(urlPath: string)
    ensures "Content-Type" in HlsHeaders(urlPath) <==>
      HasSuffix(HlsPath(urlPath), ".ts") || HasSuffix(HlsPath(urlPath), ".m3u8")
    ensures HasSuffix(HlsPath(urlPath), ".ts") ==> HlsHeaders(urlPath)["Content-Type"] == SEGMENT_TYPE
    ensures HasSuffix(HlsPath(urlPath), ".m3u8") ==> HlsHeaders(urlPath)["Content-Type"] == PLAYLIST_TYPE
  {
    ExtMatchesSuffix(HlsPath(urlPath));
  }

  /** Stripping "/hls" never changes the suffix of a segment request. */
  lemma TrimKeepsSegmentSuffix(urlPath: string)
    requires HasSuffix(urlPath, ".ts")
    ensures HasSuffix(HlsPath(urlPath), ".ts")
  {
    if HasPrefix(urlPath, HLS_PREFIX) {
      assert urlPath[|urlPath| - 3] == '.';
      assert |urlPath| >= 7;
    }
  }

  // ---------------------------------------------------------------- HTTPS redirect

  const HTTPS_SCHEME := "https://"

  /** A redirect: the status and the Location header. */
  datatype Redirection = Redirection(status: int, location: string)

  /** The plain-HTTP handler: a permanent redirect to the same host and
      request URI over HTTPS. */
  function Redirect(host: string, requestUri: string): (r: Redirection)
    ensures r.status == StatusMovedPermanently
    ensures HasPrefix(r.location, HTTPS_SCHEME)
    ensures r.location[|HTTPS_SCHEME|..] == host + requestUri
  {
    Redirection(StatusMovedPermanently, HTTPS_SCHEME + host + requestUri)
  }

  /** The position of the first `c` in `s`, or |s| when there is none. */
  function IndexOf(s: string, c: char): (k: nat)
    ensures k <= |s|
    ensures forall i :: 0 <= i < k ==> s[i] != c
    ensures k < |s| ==> s[k] == c
  {
    if s == [] || s[0] == c then 0 else 1 + IndexOf(s[1..], c)
  }

  /** Reads the host and the request URI back out of an https:// target. */
  function SplitTarget(location: string): (parts: (string, string))
    requires HasPrefix(location, HTTPS_SCHEME)
    ensures HTTPS_SCHEME + parts.0 + parts.1 == location
    ensures '/' !in parts.0
  {
    var rest := location[|HTTPS_SCHEME|..];
    var k := IndexOf(rest, '/');
    assert rest[..k] + rest[k..] == rest;
    (rest[..k], rest[k..])
  }

  /** The redirect loses nothing: a host (which has no '/') and a request
      URI (which starts with '/') are recovered from the target. */
  lemma RedirectRoundTrip(host: string, requestUri: string)
    requires '/' !in host
    requires |requestUri| > 0 && requestUri[0] == '/'
    ensures SplitTarget(Redirect(host, requestUri).location) == (host, requestUri)
  {
    var rest := host + requestUri;
    assert Redirect(host, requestUri).location[|HTTPS_SCHEME|..] == rest;
    assert rest[|host|] == '/';
    assert forall i :: 0 <= i < |host| ==> rest[i] == host[i];
    assert IndexOf(rest, '/') == |host|;
  }
}
